=== FILE: README.md ===
# xmalloc pooling engine in Dafny

This project models the pointer-structure core of the xmalloc allocator's
pooling engine and proves properties of it. The core has four parts:

- **Special bins.** The list of special bins is singly linked and kept
  ascending by `numberBlocks`. The model covers find (with early exit and
  without), sorted insert, and remove by identity, including the remove's
  early-exit quirk.
- **A bin's pages.** They form a NULL-terminated doubly linked chain,
  anchored at `currentPage` and `lastPage`. The model covers:
  - the "no pages yet" sentinel page;
  - inserting a page after the current page;
  - taking a page out;
  - pushing a block onto a page's free list;
  - the allocation dispatch: serve from the current page, or move on to its
    successor or to a new page.
- **Sticky tags.** A page's `bin` word is an aligned bin address plus a tag
  below the pointer size W in the low bits. The model covers the getters and
  setters and the walk along a bin's `next` chain that finds the bin a tag
  names.
- **Regions.** These are take-out, insert-before and insert-after on the
  doubly linked list of regions.

Pointers are ids into stores (`map<Id, Record>`), and NULL is `None`. The
shared dummy page `__XMALLOC_ZERO_PAGE` is the explicit value `ZeroPage`; its
links and free list read as NULL. The records follow the C structs field by
field (`data.dfy`). Each list is described by a ghost sequence of ids. The
generic predicates `Singly` and `Doubly` (`links.dfy`) say that the links of
a store visit exactly that sequence.

Operations are written as the source writes them: the same pointer writes,
in the same order, with the same branches. Walking loops and the operations
on a bin's pages are methods; the region splices, tag arithmetic and
free-list push are functions. Each operation except `xIsStickyBin`, which has
only an equivalent arithmetic form, is paired with one of:

- the list it leaves behind (a splice or an unlink of the ghost sequence),
- a reference definition (the first position with a key),
- a round trip (insert then take out; tag then read back).

W is 8 (64-bit pointers). W is a power of two, so `x & (W - 1)` is written
`x % W` and `x & ~(W - 1)` is written `x - x % W`. The setters' `+` wraps
modulo 2^64.

Three behaviours of the code are worth stating plainly:

- **Page list shape.** A bin's pages form a NULL-terminated chain, not a
  ring: the first page's `prev` and the last page's `next` are NULL.
- **Which bins advance.** A full bin advances to the current page's
  successor only when `sticky == 0` (src/bin.h:387), not whenever
  `xIsStickyBin` is false. A bin with a small non-zero tag therefore always
  takes a new page.
- **Duplicate special bins.** The sorted insert does not check for duplicate
  keys. When `sBin`'s key is `numberBlocks`, the model proves that the list
  stays ascending, and that it stays strictly ascending when the key is not
  present yet.

## Model

| member | source | states |
|---|---|---|
| `SpecBinList.FindInSortedList` | src/bin.h:127-139 | Returns the node at the first position whose key is not below `numberBlocks` when that key equals it, otherwise NULL. On an ascending list the result is non-NULL iff some node has the key. |
| `SpecBinList.AscendingKeyAtFirstAtLeast` | src/bin.h:127-139 | On an ascending list the key, if present anywhere, sits at the first position not below it. This is why the early exit loses nothing. |
| `SpecBinList.FindInList` | src/bin.h:159-166 | Returns the first node with the key, and NULL exactly when no node has it. |
| `SpecBinList.InsertIntoSortedList` | src/bin.h:187-205 | The list becomes the old list with `sBin` placed before the first node whose key is at least `numberBlocks`. The returned root is `sBin` iff the list was empty or `numberBlocks <= root.numberBlocks`, and otherwise is the old root. Only `next` fields change, and only those of `sBin` and its new predecessor. When `sBin`'s key is `numberBlocks`, ascending order is kept, and strict order is kept if no node had that key. |
| `SpecBinList.InsertKeepsAscending` | src/bin.h:187-205 | Placing a node before the first node not below its key keeps the keys ascending. |
| `SpecBinList.InsertKeepsStrictlyAscending` | src/bin.h:187-205 | The same for strictly ascending keys, when no node has the new key yet. |
| `SpecBinList.LinkInSplices` | src/bin.h:200-201 | The two link writes of the insert turn the list `s` into `s` with `sBin` spliced in at the insert position. |
| `SpecBinList.RemoveFromSortedList` | src/bin.h:221-251 | A NULL root gives NULL. A root equal to `sBin` gives its successor, with nothing written. If `sBin` is absent, nothing changes and the root is returned. On an ascending list containing `sBin`, exactly `sBin` is unlinked and the root is kept. On any list, `sBin` is unlinked iff the scan passes every earlier node but the last one before it. |
| `SpecBinList.RemoveOutcome` | src/bin.h:232-250 | Characterises every way the scan can end (at the end of the list, at `sBin`, or by the early exit) by the resulting store and root. |
| `SpecBinList.RemoveScanStopsEarlyOnUnsortedList` | src/bin.h:240-241 | Removing the last node of the list 0, 1, 2 with keys 5, 1, 1 returns the old root, and all three nodes are still linked in order. The early exit tests the key of the node behind the iterator (5 > 1), so it fires although the iterator's own key would not. |
| `BinPages.InsertPageToBin` | src/bin.h:308-324 | An empty bin gets `page` as its one page, current and last, with both links NULL. Otherwise `page` is spliced in right after the unchanged current page, and becomes last iff the current page was last. Only link fields change. No page outside the chain other than `page` is written. |
| `BinPages.TakeOutPageFromBin` | src/bin.h:267-296 | The other pages stay linked in their old order. Taking out the only page restores `ZeroPage` and a NULL last page. Taking out the current page moves current to its successor, or to its predecessor when it has none. Taking out the last page makes its predecessor last. The removed page's record is unchanged. |
| `BinPages.InsertThenTakeOutRestores` | src/bin.h:267-324 | Inserting a page not in the bin and taking it straight out gives back the bin record and every other page record. |
| `BinPages.ChainAfterInsert` | src/bin.h:318-322 | The four link writes of insert-after-current produce the chain with the page spliced in after the current page. |
| `BinPages.ChainAfterTakeOut` | src/bin.h:285-295 | The neighbour writes of take-out produce the chain without the page, anchored at the new current and last pages. |
| `BinAlloc.AllocFromFullPage` | src/bin.h:379-401 | The old current page's `numberUsedBlocks` becomes 0. A bin with `sticky == 0` whose current page has a successor moves current to it; that counter write is then the only change to the pages, and no new page is needed. Otherwise the supplied page is linked in after current, and only link fields and that counter change. Either way the page moved to is current and is returned, the chain stays well formed, and the bin's other fields are kept. |
| `BinAlloc.AllocFromBin` | src/bin.h:422-429 | Nothing changes and the current page is returned iff that page is real and has a free block. Otherwise every postcondition of `AllocFromFullPage` holds: the counter reset, the advance or insert, the kept bin fields, and the frames on page fields and on pages outside the chain. The returned page is current afterwards and keeps its free list. |
| `FreeList.FreeToPage` | src/bin.h:70-82 | A page with used blocks takes `addr` as the new free-list head, and `addr`'s first word holds the old head. Otherwise the block goes to the fault path with nothing written. No other page or word changes. |
| `FreeList.FreeToPagePushesFront` | src/bin.h:70-82 | Freeing a block that is not already free makes the free list `[addr]` followed by the old free blocks in order: last freed, first reused. |
| `FreeList.FreeToPageKeepsOtherLists` | src/bin.h:70-82 | The free lists of the other pages stay intact, when `addr` is on none of them. |
| `StickyTags.GetStickyOfPage` | src/bin.h:466-470 | The tag is below W, and the word minus the tag is a multiple of W. |
| `StickyTags.GetTopBinOfPage` | src/bin.h:513-520 | The top bin is a multiple of W, and is the largest one not above the word. |
| `StickyTags.TagSplitsWord` | src/bin.h:466-520 | The word is exactly top bin plus tag. |
| `StickyTags.SetTopBinAndStickyOfPage` | src/bin.h:482-486 | Only the `bin` word changes. For an aligned bin address the top bin reads back as that address and the tag as the bin's `sticky` modulo W. |
| `StickyTags.SetTopBinOfPage` | src/bin.h:498-501 | Only the `bin` word changes. For an aligned address the top bin becomes it and the tag is preserved. |
| `StickyTags.SetBinOfPage` | src/bin.h:585-588 | The same update as `SetTopBinOfPage`, with the same read-back and tag preservation. |
| `StickyTags.SetStickyOfPage` | src/bin.h:532-537 | Only the `bin` word changes. The top bin is preserved, and the tag becomes the bin's `sticky` modulo W. |
| `StickyTags.IsStickyBin` | src/bin.h:97-102 | A bin is sticky exactly when a tag below W cannot hold its `sticky` value. |
| `StickyTags.GetBinOfPage` | src/bin.h:549-558 | A sticky top bin is returned as is. Otherwise the result is the first bin along the top bin's `next` chain whose `sticky` equals the page's tag, or the chain's last bin when none does. |
| `StickyTags.TaggedPageFindsItsBin` | src/bin.h:482-520 | A page tagged for bin `s[k]` reads back the chain's head as its top bin. If the top bin is not sticky, `s[k]`'s tag fits, and no earlier bin shares it, then `s[k]` is the first bin of the chain with the page's tag. |
| `StickyTags.LookUpTaggedPage` | src/bin.h:482-558 | Tagging a page for bin `s[k]` and then looking it up returns `s[k]`. This holds when the top bin is not sticky, `s[k]`'s tag fits, and no earlier bin in the chain shares it. |
| `Regions.TakeOutRegion` | include/xRegion.h:28-34 | The non-NULL predecessor skips forward over `region`, and the non-NULL successor skips back over it. `region`'s record is unchanged, and only those two neighbours' links are written. |
| `Regions.InsertRegionBefore` | include/xRegion.h:46-52 | When the three regions are distinct, `insert` sits between `before`'s old predecessor and `before`, and those links are the only writes. Only link fields change, and no region outside the three is written. |
| `Regions.InsertRegionAfter` | include/xRegion.h:64-70 | When the three regions are distinct, `insert` sits between `after` and its old successor, and those links are the only writes. Only link fields change, and no region outside the three is written. |
| `Regions.TakeOutRegionUnlinks` | include/xRegion.h:28-34 | Taking out the `k`-th region of a list leaves the list without it, the others in their old order. |
| `Regions.InsertRegionBeforeSplices` | include/xRegion.h:46-52 | Inserting a region not on the list before the `k`-th region gives the list with it at position `k`. |
| `Regions.InsertRegionAfterSplices` | include/xRegion.h:64-70 | Inserting a region not on the list after the `k`-th region gives the list with it at position `k + 1`. |
| `Regions.InsertAfterThenTakeOutRestores` | include/xRegion.h:28-70 | Insert-after followed by take-out restores every other region's record, when `insert` differs from `after` and from `after`'s successor, and that successor links back to `after`. |
| `Regions.InsertBeforeThenTakeOutRestores` | include/xRegion.h:28-52 | Insert-before followed by take-out restores every other region's record, when `insert` differs from `before` and from `before`'s predecessor, and that predecessor links forward to `before`. |

## Left out

- `xAllocNewPageForBin` has no body in the modelled files. The page it would return is the parameter `supplied` of `AllocFromFullPage` and `AllocFromBin`; any other state it changes (regions, statistics) is not modelled.
- `xAllocFromNonEmptyPage` has no body in the modelled files. `AllocFromBin` and `AllocFromFullPage` return the page the block would be taken from, not the block.
- `xFreeToPageFault` has no body in the modelled files. `FreeToPage` returns the outcome `Fault` in its place, so the repositioning of a page under the build-time policy is not modelled.
- `xAlloc0FromBin`: the `memset` zeroing of raw bytes is not modelled.
- `xIsStaticBin` is not modelled: it compares raw addresses against a global array.
- `xGetBinOfAddr` and `xGetPageOfAddr` are not modelled: mapping an address to its page is address arithmetic outside this core.
- src/system.c is not part of this model (calls to the system allocator, the out-of-memory hook, process exit).
- Debug output, statistics (`xInfoStruct`), option knobs and the error enumeration are not modelled.
- The tests are not modelled; they exercise the public API, which is outside this core.
- `__XMALLOC_ASSERT` checks in `xAllocFromFullPage` are debug-only and are not modelled as requirements.
- A NULL `currentPage` cannot be represented. `CurrentPage` is either `ZeroPage` or a real page, so the `page != NULL` test at src/bin.h:425 always passes. The model assumes that bins start at `ZeroPage` and hold `ZeroPage` or a real page thereafter. How bins are created is not part of this model, and the comment at src/globals.h:18 covers static bins only.
- `__XMALLOC_ZERO_PAGE` is assumed zero-initialised, so its `next` (src/bin.h:387) and `current` (src/bin.h:425) read as NULL. Its definition is not part of this model. src/globals.h:18-19 only declares it, and the assumption rests on its name and the comment there.
- W is fixed at 8: the model treats 64-bit pointers only.
- SpecBinList.InsertIntoSortedList: requires that `sBin` is not already on the list. Inserting a listed node can corrupt the list: it may become cyclic or lose nodes. The model assumes that callers insert only new special bins; the calling code is not part of this model.
- BinPages.InsertPageToBin: requires a well-formed chain, a page not already in it, and the position of the current page. The source relies on the same bin invariant and does not check it.
- BinPages.TakeOutPageFromBin: requires a well-formed chain containing the page, the invariant the source relies on.
- BinAlloc.AllocFromFullPage: when the bin does not advance, requires that the supplied page is not already in the bin, as a newly obtained page is not. The same holds for BinAlloc.AllocFromBin when the current page is also full.
- StickyTags.GetBinOfPage: requires that the top bin's `next` chain is NULL-terminated, so the walk ends.
- Regions.InsertRegionBefore: states its pointwise effect only when `insert`, `before` and `before`'s predecessor are distinct. With aliasing, the writes are still replayed exactly, but no separate claim is made.
- Regions.InsertRegionAfter: states its pointwise effect only when `insert`, `after` and `after`'s successor are distinct, for the same reason.

=== FILE: alloc.dfy ===
/**
 * Allocation dispatch of a bin (src/bin.h): serve from the current page
 * while it has free blocks, otherwise retire the current page and move on,
 * either to its successor or to a page newly obtained for the bin.
 *
 * Obtaining a new page (`xAllocNewPageForBin`) and taking a block off a
 * page's free list (`xAllocFromNonEmptyPage`) are not part of this model:
 * the new page is a parameter `supplied`, and an allocation returns the page
 * the block is to be taken from.
 */
module BinAlloc {
  import opened Options
  import opened Data
  import opened Links
  import opened BinPages

  /** Whether a full bin moves on to the current page's successor rather than to a new page. */
  ghost predicate Advances(bin: Bin, s: seq<PageId>, c: nat) {
    bin.sticky == 0 && s != [] && c + 1 < |s|
  }

  /**
   * `xAllocFromFullPage`: the current page (if any) is marked as having no
   * used blocks; a bin whose `sticky` is zero moves on to the current page's
   * successor when there is one; otherwise `supplied` is linked in after the
   * current page. Either way the page moved to becomes current and is
   * returned as the page to allocate from. The bin's pages become `s'`.
   * `supplied` stands for the page `xAllocNewPageForBin` would return; a
   * bin that advances never asks for it, so it is constrained only when the
   * bin does not advance.
   */
  method AllocFromFullPage(pages: PageStore, bin: Bin, supplied: PageId, ghost s: seq<PageId>, ghost c: nat)
    returns (pages': PageStore, bin': Bin, newPage: PageId, ghost s': seq<PageId>)
    requires Chain(pages, bin, s)
    requires s != [] ==> c < |s| && bin.currentPage == Current(s[c])
    requires !Advances(bin, s, c) ==> supplied in pages && supplied !in s
    ensures Chain(pages', bin', s') && newPage in s'
    ensures bin'.currentPage == Current(newPage)
    ensures bin' == bin.(currentPage := bin'.currentPage, lastPage := bin'.lastPage)
    ensures Advances(bin, s, c) ==>
              && newPage == s[c + 1] && s' == s && bin'.lastPage == bin.lastPage
              && pages' == pages[s[c] := pages[s[c]].(numberUsedBlocks := 0)]
    ensures !Advances(bin, s, c) ==>
              newPage == supplied && s' == if s == [] then [supplied] else Splice(s, c + 1, supplied)
    ensures pages'.Keys == pages.Keys
    ensures s != [] ==> pages'[s[c]].numberUsedBlocks == 0
    ensures forall x {:trigger pages'[x]} :: x in pages ==>
              pages'[x] == pages[x].(numberUsedBlocks := pages'[x].numberUsedBlocks,
                                     prev := pages'[x].prev, next := pages'[x].next)
    ensures forall x {:trigger pages'[x]} :: x in pages && (s == [] || x != s[c]) ==>
              pages'[x].numberUsedBlocks == pages[x].numberUsedBlocks
    ensures forall x {:trigger pages'[x]} :: x in pages && x !in s && x != supplied ==> pages'[x] == pages[x]
  {
    pages', bin' := pages, bin;
    // The shared empty page is assumed zero-initialised: its successor reads as NULL.
    var next: Option<PageId> := None;
    match bin.currentPage {
      case Current(cur) =>
        ChainKeepsOnCounterWrite(pages, bin, s, cur, 0);
        pages' := pages'[cur := pages'[cur].(numberUsedBlocks := 0)];
        next := pages'[cur].next;
      case ZeroPage =>
    }
    if bin.sticky == 0 && next.Some? {
      newPage := next.value;
      s' := s;
    } else {
      newPage := supplied;
      pages', bin' := InsertPageToBin(pages', bin', supplied, s, c);
      s' := if s == [] then [supplied] else Splice(s, c + 1, supplied);
      if s != [] {
        SpliceKeeps(s, c + 1, supplied, s[c]);
      }
    }
    ghost var before := bin';
    bin' := bin'.(currentPage := Current(newPage));
    ChainMovesCurrent(pages', before, s', newPage);
  }

  /** The page `xAllocFromBin` takes the block from, when the current page still has one. */
  predicate ServesFromCurrent(pages: PageStore, bin: Bin) {
    bin.currentPage.Current? && bin.currentPage.id in pages && pages[bin.currentPage.id].current.Some?
  }

  /**
   * `xAllocFromBin`: a current page with a non-empty free list serves the
   * allocation and nothing changes; otherwise the bin goes through
   * `AllocFromFullPage`. The returned page is the bin's current page
   * afterwards, and its free list is the one it had before.
   */
  method AllocFromBin(pages: PageStore, bin: Bin, supplied: PageId, ghost s: seq<PageId>, ghost c: nat)
    returns (pages': PageStore, bin': Bin, served: PageId, ghost s': seq<PageId>)
    requires Chain(pages, bin, s)
    requires s != [] ==> c < |s| && bin.currentPage == Current(s[c])
    requires !ServesFromCurrent(pages, bin) && !Advances(bin, s, c) ==> supplied in pages && supplied !in s
    ensures bin.currentPage.Current? ==> bin.currentPage.id in pages
    ensures Chain(pages', bin', s') && served in s'
    ensures bin'.currentPage == Current(served)
    ensures pages'.Keys == pages.Keys
    ensures served in pages && pages'[served].current == pages[served].current
    ensures ServesFromCurrent(pages, bin) ==> pages' == pages && bin' == bin && s' == s
    ensures !ServesFromCurrent(pages, bin) ==>
              && bin' == bin.(currentPage := bin'.currentPage, lastPage := bin'.lastPage)
              && (s != [] ==> pages'[s[c]].numberUsedBlocks == 0)
              && (Advances(bin, s, c) ==>
                    && served == s[c + 1] && s' == s && bin'.lastPage == bin.lastPage
                    && pages' == pages[s[c] := pages[s[c]].(numberUsedBlocks := 0)])
              && (!Advances(bin, s, c) ==>
                    served == supplied && s' == if s == [] then [supplied] else Splice(s, c + 1, supplied))
    ensures !ServesFromCurrent(pages, bin) ==>
              forall x {:trigger pages'[x]} :: x in pages ==>
                pages'[x] == pages[x].(numberUsedBlocks := pages'[x].numberUsedBlocks,
                                       prev := pages'[x].prev, next := pages'[x].next)
    ensures !ServesFromCurrent(pages, bin) ==>
              forall x {:trigger pages'[x]} :: x in pages && (s == [] || x != s[c]) ==>
                pages'[x].numberUsedBlocks == pages[x].numberUsedBlocks
    ensures !ServesFromCurrent(pages, bin) ==>
              forall x {:trigger pages'[x]} :: x in pages && x !in s && x != supplied ==> pages'[x] == pages[x]
  {
    if bin.currentPage.Current? {
      assert s[c] in pages;
    }
    if ServesFromCurrent(pages, bin) {
      assert s[c] in s;
      return pages, bin, bin.currentPage.id, s;
    }
    pages', bin', served, s' := AllocFromFullPage(pages, bin, supplied, s, c);
  }
}

=== FILE: binpages.dfy ===
/**
 * The pages of one bin (src/bin.h): a NULL-terminated doubly linked chain
 * whose last page is `lastPage` and in which `currentPage` marks where
 * allocation happens. An empty bin has `currentPage == ZeroPage` and
 * `lastPage == NULL`.
 */
module BinPages {
  import opened Options
  import opened Data
  import opened Links

  function PageNexts(pages: PageStore): (links: Links) {
    map x | x in pages :: pages[x].next
  }

  function PagePrevs(pages: PageStore): (links: Links) {
    map x | x in pages :: pages[x].prev
  }

  lemma PageLinksUpdate(pages: PageStore, x: PageId, p: Page)
    ensures PageNexts(pages[x := p]) == PageNexts(pages)[x := p.next]
    ensures PagePrevs(pages[x := p]) == PagePrevs(pages)[x := p.prev]
  {
  }

  /**
   * The pages of `bin` are `s`, front to back: linked both ways, `lastPage`
   * is the back, and `currentPage` is one of them; or `s` is empty and the
   * bin holds the empty sentinel.
   */
  ghost predicate Chain(pages: PageStore, bin: Bin, s: seq<PageId>) {
    && Distinct(s)
    && (forall i {:trigger s[i] in pages} {:trigger pages[s[i]]} :: 0 <= i < |s| ==>
          s[i] in pages && pages[s[i]].next == NextOf(s, i) && pages[s[i]].prev == PrevOf(s, i))
    && Anchored(bin, s)
  }

  /** Where the bin record points into its pages `s`. */
  ghost predicate Anchored(bin: Bin, s: seq<PageId>) {
    if s == [] then bin.currentPage == ZeroPage && bin.lastPage == None
    else bin.lastPage == Some(s[|s| - 1]) && bin.currentPage.Current? && bin.currentPage.id in s
  }

  /** A chain seen as a doubly linked list over the page links. */
  lemma ChainLinks(pages: PageStore, bin: Bin, s: seq<PageId>)
    requires Chain(pages, bin, s)
    ensures Doubly(PageNexts(pages), PagePrevs(pages), s)
  {
    forall i | 0 <= i < |s|
      ensures s[i] in PageNexts(pages) && PageNexts(pages)[s[i]] == NextOf(s, i)
      ensures s[i] in PagePrevs(pages) && PagePrevs(pages)[s[i]] == PrevOf(s, i)
    {
      assert s[i] in pages;
    }
  }

  /** A doubly linked list over the page links, anchored in the bin record, is a chain. */
  lemma LinksChain(pages: PageStore, bin: Bin, s: seq<PageId>)
    requires Doubly(PageNexts(pages), PagePrevs(pages), s) && Anchored(bin, s)
    ensures Chain(pages, bin, s)
  {
    forall i | 0 <= i < |s|
      ensures s[i] in pages && pages[s[i]].next == NextOf(s, i) && pages[s[i]].prev == PrevOf(s, i)
    {
      assert s[i] in PageNexts(pages) && PageNexts(pages)[s[i]] == NextOf(s, i);
      assert PagePrevs(pages)[s[i]] == PrevOf(s, i);
    }
  }

  /** A chain depends on its pages' links only: writing a counter keeps it. */
  lemma ChainKeepsOnCounterWrite(pages: PageStore, bin: Bin, s: seq<PageId>, x: PageId, n: int)
    requires Chain(pages, bin, s) && x in pages
    ensures Chain(pages[x := pages[x].(numberUsedBlocks := n)], bin, s)
  {
    var pages' := pages[x := pages[x].(numberUsedBlocks := n)];
    forall i | 0 <= i < |s|
      ensures s[i] in pages' && pages'[s[i]].next == NextOf(s, i) && pages'[s[i]].prev == PrevOf(s, i)
    {
      assert s[i] in pages;
    }
  }

  /** Any page of the chain may be made current. */
  lemma ChainMovesCurrent(pages: PageStore, bin: Bin, s: seq<PageId>, p: PageId)
    requires Chain(pages, bin, s) && p in s
    ensures Chain(pages, bin.(currentPage := Current(p)), s)
  {
  }

  /**
   * `xInsertPageToBin`: an empty bin gets `page` as its only page, both links
   * NULL; otherwise `page` is linked in right after the current page, which
   * stays current, and becomes the last page if the current page was last.
   * The bin's pages `s` (current page at `c`) are ghost: they name the chain
   * the writes act on.
   */
  method InsertPageToBin(pages: PageStore, bin: Bin, page: PageId, ghost s: seq<PageId>, ghost c: nat)
    returns (pages': PageStore, bin': Bin)
    requires Chain(pages, bin, s) && page in pages && page !in s
    requires s != [] ==> c < |s| && bin.currentPage == Current(s[c])
    ensures pages'.Keys == pages.Keys
    ensures forall x {:trigger pages'[x]} :: x in pages ==> pages'[x] == pages[x].(prev := pages'[x].prev, next := pages'[x].next)
    ensures forall x {:trigger pages'[x]} :: x in pages && x !in s && x != page ==> pages'[x] == pages[x]
    ensures bin' == bin.(currentPage := bin'.currentPage, lastPage := bin'.lastPage)
    ensures s == [] ==> Chain(pages', bin', [page]) && bin'.currentPage == Current(page)
    ensures s != [] ==> Chain(pages', bin', Splice(s, c + 1, page)) && bin'.currentPage == bin.currentPage
  {
    pages', bin' := pages, bin;
    match bin.currentPage
    case ZeroPage =>
      pages' := pages'[page := pages'[page].(prev := None)];
      pages' := pages'[page := pages'[page].(next := None)];
      bin' := bin'.(currentPage := Current(page), lastPage := Some(page));
      ChainAfterFirstInsert(pages, bin, page, pages', bin');
    case Current(cur) =>
      assert cur == s[c] && page != cur;
      assert c + 1 < |s| ==> s[c + 1] != s[c] && s[c + 1] != page && bin.lastPage != Some(cur);
      if bin.lastPage == Some(cur) {
        bin' := bin'.(lastPage := Some(page));
      } else {
        var succ := pages[cur].next.value;
        pages' := pages'[succ := pages'[succ].(prev := Some(page))];
      }
      pages' := pages'[page := pages'[page].(next := pages'[cur].next)];
      pages' := pages'[cur := pages'[cur].(next := Some(page))];
      pages' := pages'[page := pages'[page].(prev := Some(cur))];
      ChainAfterInsert(pages, bin, s, c, page, pages', bin');
  }

  /** The chain after the writes of an insertion into an empty bin, whatever produced them. */
  lemma ChainAfterFirstInsert(pages: PageStore, bin: Bin, page: PageId, pages': PageStore, bin': Bin)
    requires Chain(pages, bin, [])
    requires page in pages && pages' == pages[page := pages[page].(prev := None, next := None)]
    requires bin'.currentPage == Current(page) && bin'.lastPage == Some(page)
    ensures Chain(pages', bin', [page])
  {
    PageLinksUpdate(pages, page, pages[page].(prev := None, next := None));
    DoublyInsert(PageNexts(pages), PagePrevs(pages), [], 0, page, PageNexts(pages'), PagePrevs(pages'));
    LinksChain(pages', bin', [page]);
  }

  /**
   * `xTakeOutPageFromBin`: unlinks `page`, at position `k` of the bin's
   * pages `s`, from its neighbours. Removing the only page empties the bin;
   * removing the current page makes its successor current, or its
   * predecessor when it has no successor; removing the last page makes its
   * predecessor last. `page`'s own record is left as it was.
   */
  method TakeOutPageFromBin(pages: PageStore, bin: Bin, page: PageId, ghost s: seq<PageId>, ghost k: nat)
    returns (pages': PageStore, bin': Bin)
    requires Chain(pages, bin, s) && k < |s| && s[k] == page
    ensures pages'.Keys == pages.Keys
    ensures forall x {:trigger pages'[x]} :: x in pages ==> pages'[x] == pages[x].(prev := pages'[x].prev, next := pages'[x].next)
    ensures forall x {:trigger pages'[x]} :: x in pages && (x !in s || x == page) ==> pages'[x] == pages[x]
    ensures bin' == bin.(currentPage := bin'.currentPage, lastPage := bin'.lastPage)
    ensures Chain(pages', bin', Without(s, k))
    ensures bin.currentPage == Current(page) ==>
              bin'.currentPage == if k + 1 < |s| then Current(s[k + 1]) else if k > 0 then Current(s[k - 1]) else ZeroPage
    ensures bin.currentPage != Current(page) ==> bin'.currentPage == bin.currentPage
  {
    assert page in pages;
    var pg := pages[page];
    assert k > 0 ==> s[k - 1] != page;
    assert k + 1 < |s| ==> s[k + 1] != page && bin.lastPage != Some(page);
    pages', bin' := pages, bin;
    if bin.currentPage == Current(page) && pg.next.None? && pg.prev.None? {
      bin' := bin'.(lastPage := None, currentPage := ZeroPage);
    } else {
      if bin.currentPage == Current(page) {
        bin' := bin'.(currentPage := Current(if pg.next.None? then pg.prev.value else pg.next.value));
      }
      if bin'.lastPage == Some(page) {
        bin' := bin'.(lastPage := pg.prev);
      } else {
        pages' := pages'[pg.next.value := pages'[pg.next.value].(prev := pg.prev)];
      }
      if pages'[page].prev.Some? {
        var p := pages'[page].prev.value;
        pages' := pages'[p := pages'[p].(next := pages'[page].next)];
      }
    }
    assert pages' == if |s| == 1 then pages else UnlinkedPages(pages, s, k);
    assert bin'.lastPage == if k + 1 == |s| then PrevOf(s, k) else bin.lastPage;
    if bin.currentPage != Current(page) {
      WithoutKeeps(s, k, bin.currentPage.id);
    } else if k + 1 < |s| {
      WithoutKeeps(s, k, s[k + 1]);
    } else if k > 0 {
      WithoutKeeps(s, k, s[k - 1]);
    } else {
      assert Without(s, k) == [];
    }
    ChainAfterTakeOut(pages, bin, s, k, pages', bin');
  }

  /** The page links projected from a store that agrees with `pages` on the pages of `s` but two. */
  lemma PageLinksAfterInsert(pages: PageStore, s: seq<PageId>, c: nat, page: PageId, pages': PageStore)
    requires forall i {:trigger s[i] in pages} :: 0 <= i < |s| ==> s[i] in pages
    requires Doubly(PageNexts(pages), PagePrevs(pages), s)
    requires page !in s && c < |s|
    requires page in pages' && pages'[page].next == NextOf(s, c) && pages'[page].prev == Some(s[c])
    requires s[c] in pages' && pages'[s[c]].next == Some(page) && pages'[s[c]].prev == PrevOf(s, c)
    requires c + 1 < |s| ==>
               s[c + 1] in pages' && pages'[s[c + 1]].prev == Some(page) && pages'[s[c + 1]].next == NextOf(s, c + 1)
    requires forall i {:trigger s[i] in pages'} :: 0 <= i < |s| ==> s[i] in pages'
    requires forall i {:trigger pages'[s[i]]} :: 0 <= i < |s| && i != c && i != c + 1 ==> pages'[s[i]] == pages[s[i]]
    ensures Doubly(PageNexts(pages'), PagePrevs(pages'), Splice(s, c + 1, page))
  {
    var next, prev, next', prev' := PageNexts(pages), PagePrevs(pages), PageNexts(pages'), PagePrevs(pages');
    PageLinksFrame(pages, pages', s, c, c + 1);
    if c + 1 < |s| {
      assert next'[s[c + 1]] == next[s[c + 1]];
    }
    assert prev'[s[c]] == prev[s[c]];
    DoublyInsert(next, prev, s, c + 1, page, next', prev');
  }

  /** Two stores that agree on the pages of `s` other than `s[a]` and `s[b]` project to links that agree there too. */
  lemma PageLinksFrame(pages: PageStore, pages': PageStore, s: seq<PageId>, a: nat, b: nat)
    requires forall i {:trigger s[i] in pages} {:trigger s[i] in pages'} :: 0 <= i < |s| ==> s[i] in pages && s[i] in pages'
    requires forall i {:trigger pages'[s[i]]} :: 0 <= i < |s| && i != a && i != b ==> pages'[s[i]] == pages[s[i]]
    ensures forall i {:trigger PageNexts(pages')[s[i]]} :: 0 <= i < |s| && i != a && i != b ==>
              PageNexts(pages')[s[i]] == PageNexts(pages)[s[i]]
    ensures forall i {:trigger PagePrevs(pages')[s[i]]} :: 0 <= i < |s| && i != a && i != b ==>
              PagePrevs(pages')[s[i]] == PagePrevs(pages)[s[i]]
  {
    forall i | 0 <= i < |s| && i != a && i != b
      ensures PageNexts(pages')[s[i]] == PageNexts(pages)[s[i]]
      ensures PagePrevs(pages')[s[i]] == PagePrevs(pages)[s[i]]
    {
      assert pages'[s[i]] == pages[s[i]];
    }
  }

  /** The chain after the link writes of an insertion after `s[c]`, whatever produced them. */
  lemma ChainAfterInsert(pages: PageStore, bin: Bin, s: seq<PageId>, c: nat, page: PageId,
                         pages': PageStore, bin': Bin)
    requires Chain(pages, bin, s)
    requires page !in s && c < |s|
    requires page in pages' && pages'[page].next == NextOf(s, c) && pages'[page].prev == Some(s[c])
    requires s[c] in pages' && pages'[s[c]].next == Some(page) && pages'[s[c]].prev == PrevOf(s, c)
    requires c + 1 < |s| ==>
               s[c + 1] in pages' && pages'[s[c + 1]].prev == Some(page) && pages'[s[c + 1]].next == NextOf(s, c + 1)
    requires forall i {:trigger s[i] in pages'} :: 0 <= i < |s| ==> s[i] in pages'
    requires forall i {:trigger pages'[s[i]]} :: 0 <= i < |s| && i != c && i != c + 1 ==> pages'[s[i]] == pages[s[i]]
    requires bin'.lastPage == (if c + 1 == |s| then Some(page) else bin.lastPage)
    requires bin'.currentPage == bin.currentPage
    ensures Chain(pages', bin', Splice(s, c + 1, page))
  {
    ChainLinks(pages, bin, s);
    PageLinksAfterInsert(pages, s, c, page, pages');
    SpliceKeeps(s, c + 1, page, bin.currentPage.id);
    LinksChain(pages', bin', Splice(s, c + 1, page));
  }

  /** The store `TakeOutPageFromBin` produces on a chain, written with the neighbours of `s[k]`. */
  function UnlinkedPages(pages: PageStore, s: seq<PageId>, k: nat): (pages': PageStore)
    requires k < |s| && forall i {:trigger s[i] in pages} :: 0 <= i < |s| ==> s[i] in pages
  {
    var mid := if k + 1 < |s| then pages[s[k + 1] := pages[s[k + 1]].(prev := PrevOf(s, k))] else pages;
    if k > 0 then mid[s[k - 1] := mid[s[k - 1]].(next := NextOf(s, k))] else mid
  }

  /** The link writes of taking out `s[k]`, one page at a time. */
  lemma UnlinkedPagesLinks(pages: PageStore, s: seq<PageId>, k: nat)
    requires Distinct(s) && k < |s| && forall i {:trigger s[i] in pages} :: 0 <= i < |s| ==> s[i] in pages
    requires forall i {:trigger pages[s[i]]} :: 0 <= i < |s| ==>
               pages[s[i]].next == NextOf(s, i) && pages[s[i]].prev == PrevOf(s, i)
    ensures var u := UnlinkedPages(pages, s, k);
            && u.Keys == pages.Keys
            && u[s[k]] == pages[s[k]]
            && (k > 0 ==> u[s[k - 1]].next == NextOf(s, k) && u[s[k - 1]].prev == PrevOf(s, k - 1))
            && (k + 1 < |s| ==> u[s[k + 1]].prev == PrevOf(s, k) && u[s[k + 1]].next == NextOf(s, k + 1))
            && (forall i {:trigger u[s[i]]} :: 0 <= i < |s| && i + 1 != k && i != k + 1 ==> u[s[i]] == pages[s[i]])
  {
    if k > 0 && k + 1 < |s| {
      assert s[k - 1] != s[k + 1];
    }
    if k > 0 {
      assert s[k - 1] != s[k];
    }
    if k + 1 < |s| {
      assert s[k + 1] != s[k];
    }
  }

  /** The chain left by the writes of taking out `s[k]`, whatever produced them. */
  lemma ChainAfterTakeOut(pages: PageStore, bin: Bin, s: seq<PageId>, k: nat, pages': PageStore, bin': Bin)
    requires Chain(pages, bin, s) && k < |s|
    requires forall i {:trigger s[i] in pages} :: 0 <= i < |s| ==> s[i] in pages
    requires pages' == (if |s| == 1 then pages else UnlinkedPages(pages, s, k))
    requires bin'.lastPage == (if k + 1 == |s| then PrevOf(s, k) else bin.lastPage)
    requires Without(s, k) == [] ==> bin'.currentPage == ZeroPage && bin'.lastPage == None
    requires Without(s, k) != [] ==> bin'.currentPage.Current? && bin'.currentPage.id in Without(s, k)
    ensures Chain(pages', bin', Without(s, k)) && pages'[s[k]] == pages[s[k]]
  {
    if |s| == 1 {
      assert Without(s, k) == [];
    } else {
      ChainLinks(pages, bin, s);
      UnlinkedPagesLinks(pages, s, k);
      TakeOutPageChain(pages, s, k, pages');
      var t := Without(s, k);
      assert t[|t| - 1] == if k + 1 == |s| then s[k - 1] else s[|s| - 1];
      LinksChain(pages', bin', t);
    }
  }

  /** The page links after the writes of taking out `s[k]`, whatever produced them. */
  lemma TakeOutPageChain(pages: PageStore, s: seq<PageId>, k: nat, pages': PageStore)
    requires Doubly(PageNexts(pages), PagePrevs(pages), s) && k < |s|
    requires forall i {:trigger s[i] in pages} {:trigger s[i] in pages'} :: 0 <= i < |s| ==> s[i] in pages && s[i] in pages'
    requires forall i {:trigger pages[s[i]]} :: 0 <= i < |s| ==>
               pages[s[i]].next == NextOf(s, i) && pages[s[i]].prev == PrevOf(s, i)
    requires k > 0 ==> pages'[s[k - 1]].next == NextOf(s, k) && pages'[s[k - 1]].prev == PrevOf(s, k - 1)
    requires k + 1 < |s| ==> pages'[s[k + 1]].prev == PrevOf(s, k) && pages'[s[k + 1]].next == NextOf(s, k + 1)
    requires forall i {:trigger pages'[s[i]]} :: 0 <= i < |s| && i + 1 != k && i != k + 1 ==> pages'[s[i]] == pages[s[i]]
    ensures Doubly(PageNexts(pages'), PagePrevs(pages'), Without(s, k))
  {
    var next, prev, next', prev' := PageNexts(pages), PagePrevs(pages), PageNexts(pages'), PagePrevs(pages');
    if k > 0 {
      PageLinksFrame(pages, pages', s, k - 1, k + 1);
      assert prev'[s[k - 1]] == prev[s[k - 1]];
    } else {
      PageLinksFrame(pages, pages', s, k + 1, k + 1);
    }
    if k + 1 < |s| {
      assert next'[s[k + 1]] == next[s[k + 1]];
    }
    DoublyRemove(next, prev, s, k, next', prev');
  }

  /**
   * Inserting a page that is not in the bin and taking it straight out again
   * gives back the bin record and every other page record unchanged.
   */
  method InsertThenTakeOutRestores(pages: PageStore, bin: Bin, page: PageId, ghost s: seq<PageId>, ghost c: nat)
    returns (pages': PageStore, bin': Bin)
    requires Chain(pages, bin, s) && page in pages && page !in s
    requires s != [] ==> c < |s| && bin.currentPage == Current(s[c])
    ensures bin' == bin
    ensures pages'.Keys == pages.Keys
    ensures forall x {:trigger pages'[x]} :: x in pages && x != page ==> pages'[x] == pages[x]
  {
    ghost var t := if s == [] then [page] else Splice(s, c + 1, page);
    ghost var k := if s == [] then 0 else c + 1;
    var pages1, bin1 := InsertPageToBin(pages, bin, page, s, c);
    pages', bin' := TakeOutPageFromBin(pages1, bin1, page, t, k);
    TakeOutAfterInsert(pages, bin, s, c, page, pages1, bin1, pages', bin');
  }

  /** The round trip, on the records the two operations promise, whatever produced them. */
  lemma TakeOutAfterInsert(pages: PageStore, bin: Bin, s: seq<PageId>, c: nat, page: PageId,
                           pages1: PageStore, bin1: Bin, pages': PageStore, bin': Bin)
    requires Chain(pages, bin, s) && page in pages && page !in s
    requires s != [] ==> c < |s| && bin.currentPage == Current(s[c])
    requires pages1.Keys == pages.Keys && pages'.Keys == pages1.Keys
    requires forall x {:trigger pages1[x]} :: x in pages ==> pages1[x] == pages[x].(prev := pages1[x].prev, next := pages1[x].next)
    requires forall x {:trigger pages1[x]} :: x in pages && x !in s && x != page ==> pages1[x] == pages[x]
    requires bin1 == bin.(currentPage := bin1.currentPage, lastPage := bin1.lastPage)
    requires s == [] ==> bin1.currentPage == Current(page)
    requires s != [] ==> bin1.currentPage == bin.currentPage
    requires forall x {:trigger pages'[x]} :: x in pages1 ==> pages'[x] == pages1[x].(prev := pages'[x].prev, next := pages'[x].next)
    requires forall x {:trigger pages'[x]} :: x in pages1 && (x !in (if s == [] then [page] else Splice(s, c + 1, page)) || x == page) ==> pages'[x] == pages1[x]
    requires bin' == bin1.(currentPage := bin'.currentPage, lastPage := bin'.lastPage)
    requires Chain(pages', bin', Without(if s == [] then [page] else Splice(s, c + 1, page), if s == [] then 0 else c + 1))
    requires bin1.currentPage != Current(page) ==> bin'.currentPage == bin1.currentPage
    requires bin1.currentPage == Current(page) ==> bin'.currentPage == ZeroPage
    ensures bin' == bin
    ensures forall x {:trigger pages'[x]} :: x in pages && x != page ==> pages'[x] == pages[x]
  {
    if s == [] {
      assert Without([page], 0) == [];
    } else {
      WithoutSplice(s, c + 1, page);
    }
    forall x | x in pages && x !in s && x != page
      ensures pages'[x] == pages[x]
    {
      if s != [] && x in Splice(s, c + 1, page) {
        SpliceOnly(s, c + 1, page, x);
      }
    }
    SameChainSameLinks(pages, bin, pages', bin', s, page);
  }

  /**
   * Two stores that link the same pages `s` into chains, and otherwise agree
   * on every field but the links of `page`, agree on every page but `page`.
   */
  lemma SameChainSameLinks(pages: PageStore, bin: Bin, pages': PageStore, bin': Bin, s: seq<PageId>, page: PageId)
    requires Chain(pages, bin, s) && Chain(pages', bin', s)
    requires page !in s
    requires pages'.Keys == pages.Keys
    requires forall x {:trigger pages'[x]} :: x in pages ==> pages'[x] == pages[x].(prev := pages'[x].prev, next := pages'[x].next)
    requires forall x {:trigger pages'[x]} :: x in pages && x !in s && x != page ==> pages'[x] == pages[x]
    requires bin' == bin.(currentPage := bin'.currentPage, lastPage := bin'.lastPage)
    requires bin'.currentPage == bin.currentPage || s == []
    ensures bin' == bin
    ensures forall x {:trigger pages'[x]} :: x in pages && x != page ==> pages'[x] == pages[x]
  {
    forall x | x in pages && x != page
      ensures pages'[x] == pages[x]
    {
      if x in s {
        var i :| 0 <= i < |s| && s[i] == x;
        assert pages'[x].next == pages[x].next && pages'[x].prev == pages[x].prev;
      }
    }
  }
}

=== FILE: data.dfy ===
/**
 * The records of the pooling engine: pages, bins, special bins and regions,
 * field for field as the allocator lays them out. Pointers become ids into
 * stores (`map<Id, Record>`), NULL becomes `None`, and the shared
 * "no pages yet" dummy page becomes the explicit value `ZeroPage`.
 */
module Data {
  import opened Options

  /** Unsigned machine words are 64 bits wide. */
  const WordModulus: nat := 0x1_0000_0000_0000_0000

  /** The size of a pointer in bytes; bin addresses are multiples of it. */
  const SizeOfVoidP: nat := 8

  type Word = x: nat | x < WordModulus

  type PageId = nat
  type BinAddr = Word
  type SpecBinId = nat
  type RegionId = nat
  type Addr = nat

  /** A bin's `currentPage`: either the shared empty sentinel or a real page. */
  datatype CurrentPage = ZeroPage | Current(id: PageId)

  /**
   * A page header. `current` heads the intrusive free list; `bin` is the
   * tagged word holding the owning bin's address plus a sticky tag.
   */
  datatype Page = Page(
    numberUsedBlocks: int,
    current: Option<Addr>,
    prev: Option<PageId>,
    next: Option<PageId>,
    bin: Word,
    region: Option<RegionId>)

  /**
   * A bin: the pages of one size class, from `currentPage` (where allocation
   * happens) to `lastPage`; `next` chains bins of the same size that differ
   * in their `sticky` tag.
   */
  datatype Bin = Bin(
    currentPage: CurrentPage,
    lastPage: Option<PageId>,
    next: Option<BinAddr>,
    sizeInWords: nat,
    numberBlocks: int,
    sticky: Word)

  /** A node of the sorted list of special bins, keyed by `numberBlocks`. */
  datatype SpecBin = SpecBin(
    next: Option<SpecBinId>,
    bin: BinAddr,
    numberBlocks: int,
    ref: int)

  /** A region: a batch of pages obtained from the system in one request. */
  datatype Region = Region(
    current: Option<Addr>,
    prev: Option<RegionId>,
    next: Option<RegionId>,
    initAddr: nat,
    addr: nat,
    numberInitPages: int,
    numberUsedPages: int,
    totalNumberPages: int)

  type PageStore = map<PageId, Page>
  type BinStore = map<BinAddr, Bin>
  type SpecBinStore = map<SpecBinId, SpecBin>
  type RegionStore = map<RegionId, Region>

  /** The first word of each block, read as a pointer: the link of the intrusive free list. */
  type Memory = map<Addr, Option<Addr>>
}

=== FILE: freelist.dfy ===
/**
 * The free list of a page (src/bin.h): `current` heads an intrusive singly
 * linked list threaded through the first word of each free block. Freeing
 * a block pushes it on the front.
 */
module FreeList {
  import opened Options
  import opened Data
  import opened Links

  /** Following the first words of blocks from `head` visits the free blocks `s`, then NULL. */
  ghost predicate FreeBlocks(mem: Memory, head: Option<Addr>, s: seq<Addr>) {
    Singly(mem, head, s)
  }

  /** What `xFreeToPage` does with a block: push it, or hand it to the fault handler. */
  datatype FreeOutcome =
    | Pushed(pages: PageStore, mem: Memory)
    | Fault(page: PageId, addr: Addr)

  /**
   * `xFreeToPage`: a page with used blocks takes `addr` back as the new
   * head of its free list, `addr`'s first word pointing to the old head;
   * a page without used blocks passes the block to `xFreeToPageFault`,
   * whose body is not part of this model. The used-block counter is not
   * touched either way.
   */
  function FreeToPage(pages: PageStore, mem: Memory, page: PageId, addr: Addr): (r: FreeOutcome)
    requires page in pages
    ensures r.Pushed? <==> pages[page].numberUsedBlocks > 0
    ensures r.Fault? ==> r.page == page && r.addr == addr
    ensures r.Pushed? ==>
              && r.pages.Keys == pages.Keys
              && r.pages[page].current == Some(addr)
              && r.pages[page] == pages[page].(current := r.pages[page].current)
              && (forall x {:trigger r.pages[x]} :: x in pages && x != page ==> r.pages[x] == pages[x])
    ensures r.Pushed? ==>
              && r.mem.Keys == mem.Keys + {addr}
              && r.mem[addr] == pages[page].current
              && (forall a {:trigger r.mem[a]} :: a in mem && a != addr ==> r.mem[a] == mem[a])
  {
    if pages[page].numberUsedBlocks > 0 then
      Pushed(pages[page := pages[page].(current := Some(addr))], mem[addr := pages[page].current])
    else
      Fault(page, addr)
  }

  /**
   * Freeing a block that is not already free onto a page with used blocks
   * makes it the front of the page's free list, followed by the old free
   * blocks in their old order: last freed, first reused.
   */
  lemma FreeToPagePushesFront(pages: PageStore, mem: Memory, page: PageId, addr: Addr, s: seq<Addr>)
    requires page in pages && pages[page].numberUsedBlocks > 0
    requires FreeBlocks(mem, pages[page].current, s) && addr !in s
    ensures var r := FreeToPage(pages, mem, page, addr);
            FreeBlocks(r.mem, r.pages[page].current, [addr] + s)
  {
    var r := FreeToPage(pages, mem, page, addr);
    assert Splice(s, 0, addr) == [addr] + s;
    SinglyInsert(mem, pages[page].current, s, 0, addr, r.mem);
  }

  /** Freeing to one page leaves the free list of every other page intact, unless the block was on it. */
  lemma FreeToPageKeepsOtherLists(pages: PageStore, mem: Memory, page: PageId, addr: Addr,
                                  other: PageId, u: seq<Addr>)
    requires page in pages && pages[page].numberUsedBlocks > 0
    requires other in pages && other != page
    requires FreeBlocks(mem, pages[other].current, u) && addr !in u
    ensures var r := FreeToPage(pages, mem, page, addr);
            FreeBlocks(r.mem, r.pages[other].current, u)
  {
    var r := FreeToPage(pages, mem, page, addr);
    forall i | 0 <= i < |u|
      ensures u[i] in r.mem && r.mem[u[i]] == mem[u[i]]
    {
      assert u[i] in mem;
    }
    SinglyFrame(mem, pages[other].current, u, r.mem);
  }
}

=== FILE: links.dfy ===
/**
 * Intrusive linked lists, abstracted. A list is a sequence of node ids; a
 * store is projected to a map from node id to the value of one link field,
 * and the predicates below say that following the links from the head visits
 * exactly the sequence and then meets NULL.
 *
 * The splice lemmas say which link writes turn a well-formed list into the
 * list with one node inserted or removed; every structure of the allocator
 * (special bins, a bin's pages, the free list of a page, the region list,
 * the sticky chain of a bin) reuses them.
 */
module Links {
  import opened Options

  type Links = map<nat, Option<nat>>

  function HeadOf(s: seq<nat>): (head: Option<nat>) {
    if s == [] then None else Some(s[0])
  }

  /** The successor of position `i`, NULL past the end. */
  function NextOf(s: seq<nat>, i: nat): (next: Option<nat>)
    requires i < |s|
  {
    if i + 1 < |s| then Some(s[i + 1]) else None
  }

  /** The predecessor of position `i`, NULL before the front. */
  function PrevOf(s: seq<nat>, i: nat): (prev: Option<nat>)
    requires i < |s|
  {
    if i == 0 then None else Some(s[i - 1])
  }

  ghost predicate Distinct(s: seq<nat>) {
    forall i, j :: 0 <= i < j < |s| ==> s[i] != s[j]
  }

  /** `s` with `x` placed at position `k`. */
  function Splice(s: seq<nat>, k: nat, x: nat): (t: seq<nat>)
    requires k <= |s|
    ensures |t| == |s| + 1 && t[k] == x
    ensures forall i {:trigger t[i]} :: 0 <= i < k ==> t[i] == s[i]
    ensures forall i {:trigger t[i]} :: k < i < |t| ==> t[i] == s[i - 1]
  {
    s[..k] + [x] + s[k..]
  }

  /** `s` without its element at position `k`. */
  function Without(s: seq<nat>, k: nat): (t: seq<nat>)
    requires k < |s|
    ensures |t| == |s| - 1
    ensures forall i {:trigger t[i]} :: 0 <= i < k ==> t[i] == s[i]
    ensures forall i {:trigger t[i]} :: k <= i < |t| ==> t[i] == s[i + 1]
  {
    s[..k] + s[k + 1..]
  }

  lemma SpliceKeeps(s: seq<nat>, k: nat, x: nat, y: nat)
    requires k <= |s| && y in s
    ensures y in Splice(s, k, x)
    ensures Splice(s, k, x)[|s|] == if k == |s| then x else s[|s| - 1]
  {
    var t := Splice(s, k, x);
    var j :| 0 <= j < |s| && s[j] == y;
    assert t[if j < k then j else j + 1] == y;
  }

  lemma WithoutKeeps(s: seq<nat>, k: nat, y: nat)
    requires k < |s| && y in s && y != s[k]
    ensures y in Without(s, k)
  {
    var j :| 0 <= j < |s| && s[j] == y;
    assert Without(s, k)[if j < k then j else j - 1] == y;
  }

  lemma SpliceOnly(s: seq<nat>, k: nat, x: nat, y: nat)
    requires k <= |s| && y in Splice(s, k, x)
    ensures y in s || y == x
  {
    var t := Splice(s, k, x);
    var j :| 0 <= j < |t| && t[j] == y;
    if j < k {
      assert s[j] == y;
    } else if j > k {
      assert s[j - 1] == y;
    }
  }

  /** Taking out what was just placed gives the sequence back. */
  lemma WithoutSplice(s: seq<nat>, k: nat, x: nat)
    requires k <= |s|
    ensures Without(Splice(s, k, x), k) == s
  {
    var u := Without(Splice(s, k, x), k);
    assert |u| == |s|;
    forall i | 0 <= i < |s|
      ensures u[i] == s[i]
    {
    }
  }

  /** Following `next` from `head` visits `s` in order, each node once, then NULL. */
  ghost predicate Singly(next: Links, head: Option<nat>, s: seq<nat>) {
    && Distinct(s)
    && head == HeadOf(s)
    && (forall i {:trigger s[i] in next} {:trigger next[s[i]]} :: 0 <= i < |s| ==> s[i] in next && next[s[i]] == NextOf(s, i))
  }

  /** `s` is a NULL-terminated doubly linked list: `next` and `prev` agree with the order of `s`. */
  ghost predicate Doubly(next: Links, prev: Links, s: seq<nat>) {
    && Distinct(s)
    && (forall i {:trigger s[i] in next} {:trigger next[s[i]]} :: 0 <= i < |s| ==> s[i] in next && next[s[i]] == NextOf(s, i))
    && (forall i {:trigger s[i] in prev} {:trigger prev[s[i]]} :: 0 <= i < |s| ==> s[i] in prev && prev[s[i]] == PrevOf(s, i))
  }

  lemma SinglyInsert(next: Links, head: Option<nat>, s: seq<nat>, k: nat, x: nat, next': Links)
    requires Singly(next, head, s) && k <= |s| && x !in s
    requires x in next' && next'[x] == (if k < |s| then Some(s[k]) else None)
    requires k > 0 ==> s[k - 1] in next' && next'[s[k - 1]] == Some(x)
    requires forall i {:trigger s[i] in next'} {:trigger next'[s[i]]} :: 0 <= i < |s| && i + 1 != k ==> s[i] in next' && next'[s[i]] == next[s[i]]
    ensures Singly(next', if k == 0 then Some(x) else head, Splice(s, k, x))
  {
    var t := Splice(s, k, x);
    forall i | 0 <= i < |t|
      ensures t[i] in next' && next'[t[i]] == NextOf(t, i)
    {
      if i < k {
        if i + 1 == k {
          assert t[i] == s[k - 1];
        } else {
          assert next[s[i]] == NextOf(s, i);
        }
      } else if i > k {
        assert next[s[i - 1]] == NextOf(s, i - 1);
      }
    }
  }

  lemma SinglyRemove(next: Links, head: Option<nat>, s: seq<nat>, k: nat, next': Links)
    requires Singly(next, head, s) && k < |s|
    requires k > 0 ==> s[k - 1] in next' && next'[s[k - 1]] == NextOf(s, k)
    requires forall i {:trigger s[i] in next'} {:trigger next'[s[i]]} :: 0 <= i < |s| && i != k && i + 1 != k ==> s[i] in next' && next'[s[i]] == next[s[i]]
    ensures Singly(next', if k == 0 then NextOf(s, 0) else head, Without(s, k))
  {
    var t := Without(s, k);
    forall i | 0 <= i < |t|
      ensures t[i] in next' && next'[t[i]] == NextOf(t, i)
    {
      if i + 1 == k {
        assert t[i] == s[k - 1];
      } else if i < k {
        assert next[s[i]] == NextOf(s, i);
      } else {
        assert next[s[i + 1]] == NextOf(s, i + 1);
      }
    }
  }

  /** A list depends only on the links of its own nodes. */
  lemma SinglyFrame(next: Links, head: Option<nat>, s: seq<nat>, next': Links)
    requires Singly(next, head, s)
    requires forall i {:trigger s[i] in next'} {:trigger next'[s[i]]} :: 0 <= i < |s| ==> s[i] in next' && next'[s[i]] == next[s[i]]
    ensures Singly(next', head, s)
  {
  }

  lemma DoublyInsert(next: Links, prev: Links, s: seq<nat>, k: nat, x: nat, next': Links, prev': Links)
    requires Doubly(next, prev, s) && k <= |s| && x !in s
    requires x in next' && next'[x] == (if k < |s| then Some(s[k]) else None)
    requires x in prev' && prev'[x] == (if k > 0 then Some(s[k - 1]) else None)
    requires k > 0 ==> s[k - 1] in next' && next'[s[k - 1]] == Some(x)
    requires k < |s| ==> s[k] in prev' && prev'[s[k]] == Some(x)
    requires forall i {:trigger s[i] in next'} {:trigger next'[s[i]]} :: 0 <= i < |s| && i + 1 != k ==> s[i] in next' && next'[s[i]] == next[s[i]]
    requires forall i {:trigger s[i] in prev'} {:trigger prev'[s[i]]} :: 0 <= i < |s| && i != k ==> s[i] in prev' && prev'[s[i]] == prev[s[i]]
    ensures Doubly(next', prev', Splice(s, k, x))
  {
    var t := Splice(s, k, x);
    forall i | 0 <= i < |t|
      ensures t[i] in next' && next'[t[i]] == NextOf(t, i)
      ensures t[i] in prev' && prev'[t[i]] == PrevOf(t, i)
    {
      if i < k {
        assert t[i] == s[i];
        if i + 1 != k {
          assert next[s[i]] == NextOf(s, i);
        }
        assert prev[s[i]] == PrevOf(s, i);
      } else if i > k {
        assert t[i] == s[i - 1];
        assert next[s[i - 1]] == NextOf(s, i - 1);
        if i - 1 != k {
          assert prev[s[i - 1]] == PrevOf(s, i - 1);
        }
      }
    }
  }

  lemma DoublyRemove(next: Links, prev: Links, s: seq<nat>, k: nat, next': Links, prev': Links)
    requires Doubly(next, prev, s) && k < |s|
    requires k > 0 ==> s[k - 1] in next' && next'[s[k - 1]] == NextOf(s, k)
    requires k + 1 < |s| ==> s[k + 1] in prev' && prev'[s[k + 1]] == PrevOf(s, k)
    requires forall i {:trigger s[i] in next'} {:trigger next'[s[i]]} :: 0 <= i < |s| && i != k && i + 1 != k ==> s[i] in next' && next'[s[i]] == next[s[i]]
    requires forall i {:trigger s[i] in prev'} {:trigger prev'[s[i]]} :: 0 <= i < |s| && i != k && i != k + 1 ==> s[i] in prev' && prev'[s[i]] == prev[s[i]]
    ensures Doubly(next', prev', Without(s, k))
  {
    var t := Without(s, k);
    forall i | 0 <= i < |t|
      ensures t[i] in next' && next'[t[i]] == NextOf(t, i)
      ensures t[i] in prev' && prev'[t[i]] == PrevOf(t, i)
    {
      if i < k {
        assert t[i] == s[i];
        if i + 1 != k {
          assert next[s[i]] == NextOf(s, i);
        }
        assert prev[s[i]] == PrevOf(s, i);
      } else {
        assert t[i] == s[i + 1];
        assert next[s[i + 1]] == NextOf(s, i + 1);
        if i != k {
          assert prev[s[i + 1]] == PrevOf(s, i + 1);
        }
      }
    }
  }
}

=== FILE: options.dfy ===
/** The nullable reference of the C source: `None` stands for NULL. */
module Options {

  datatype Option<+T> = None | Some(value: T)
}

=== FILE: regions.dfy ===
/**
 * The list of regions (include/xRegion.h): a NULL-terminated doubly linked
 * list through `prev`/`next`, spliced without looking at a list head. Each
 * operation writes the links in the order the source does, so the records
 * come out the same even when the nodes involved alias one another.
 */
module Regions {
  import opened Options
  import opened Data
  import opened Links

  function RegionNexts(rs: RegionStore): (links: Links) {
    map x | x in rs :: rs[x].next
  }

  function RegionPrevs(rs: RegionStore): (links: Links) {
    map x | x in rs :: rs[x].prev
  }

  /** The regions `s`, front to back, are a NULL-terminated doubly linked list. */
  ghost predicate RegionList(rs: RegionStore, s: seq<RegionId>) {
    Doubly(RegionNexts(rs), RegionPrevs(rs), s)
  }

  /**
   * `xTakeOutRegion`: the predecessor, if any, skips forward over `region`
   * and the successor, if any, skips back over it. `region`'s own record
   * is left as it was, and no other region is written.
   */
  function TakeOutRegion(rs: RegionStore, region: RegionId): (r: RegionStore)
    requires region in rs
    requires rs[region].prev.Some? ==> rs[region].prev.value in rs
    requires rs[region].next.Some? ==> rs[region].next.value in rs
    ensures r.Keys == rs.Keys
    ensures r[region] == rs[region]
    ensures rs[region].prev.Some? ==> r[rs[region].prev.value].next == rs[region].next
    ensures rs[region].next.Some? ==> r[rs[region].next.value].prev == rs[region].prev
    ensures forall x {:trigger r[x]} :: x in rs ==> r[x] == rs[x].(prev := r[x].prev, next := r[x].next)
    ensures forall x {:trigger r[x]} :: x in rs && Some(x) != rs[region].prev && Some(x) != rs[region].next ==> r[x] == rs[x]
  {
    var r1 := if rs[region].prev.Some? then
                var p := rs[region].prev.value;
                rs[p := rs[p].(next := rs[region].next)]
              else rs;
    if r1[region].next.Some? then
      var n := r1[region].next.value;
      r1[n := r1[n].(prev := r1[region].prev)]
    else r1
  }

  /**
   * `xInsertRegionBefore`: `insert` takes over `before`'s predecessor and
   * is linked between the two. When `insert`, `before` and `before`'s
   * predecessor are three different regions, `insert` points forward to
   * `before`, `before` back to `insert`, the old predecessor (if any)
   * forward to `insert`, and nothing else of theirs changes.
   */
  function InsertRegionBefore(rs: RegionStore, insert: RegionId, before: RegionId): (r: RegionStore)
    requires insert in rs && before in rs
    requires rs[before].prev.Some? ==> rs[before].prev.value in rs
    ensures r.Keys == rs.Keys
    ensures insert != before && rs[before].prev != Some(insert) && rs[before].prev != Some(before) ==>
              && r[insert] == rs[insert].(prev := rs[before].prev, next := Some(before))
              && r[before] == rs[before].(prev := Some(insert))
              && (rs[before].prev.Some? ==>
                    r[rs[before].prev.value] == rs[rs[before].prev.value].(next := Some(insert)))
    ensures forall x {:trigger r[x]} :: x in rs ==> r[x] == rs[x].(prev := r[x].prev, next := r[x].next)
    ensures forall x {:trigger r[x]} :: x in rs && x != insert && x != before && Some(x) != rs[before].prev ==> r[x] == rs[x]
  {
    var r1 := rs[insert := rs[insert].(prev := rs[before].prev)];
    var r2 := r1[insert := r1[insert].(next := Some(before))];
    var r3 := r2[before := r2[before].(prev := Some(insert))];
    if r3[insert].prev.Some? then
      var p := r3[insert].prev.value;
      r3[p := r3[p].(next := Some(insert))]
    else r3
  }

  /**
   * `xInsertRegionAfter`: `insert` takes over `after`'s successor and is
   * linked between the two. When `insert`, `after` and `after`'s successor
   * are three different regions, `insert` points back to `after`, `after`
   * forward to `insert`, the old successor (if any) back to `insert`, and
   * nothing else of theirs changes.
   */
  function InsertRegionAfter(rs: RegionStore, insert: RegionId, after: RegionId): (r: RegionStore)
    requires insert in rs && after in rs
    requires rs[after].next.Some? ==> rs[after].next.value in rs
    ensures r.Keys == rs.Keys
    ensures insert != after && rs[after].next != Some(insert) && rs[after].next != Some(after) ==>
              && r[insert] == rs[insert].(prev := Some(after), next := rs[after].next)
              && r[after] == rs[after].(next := Some(insert))
              && (rs[after].next.Some? ==>
                    r[rs[after].next.value] == rs[rs[after].next.value].(prev := Some(insert)))
    ensures forall x {:trigger r[x]} :: x in rs ==> r[x] == rs[x].(prev := r[x].prev, next := r[x].next)
    ensures forall x {:trigger r[x]} :: x in rs && x != insert && x != after && Some(x) != rs[after].next ==> r[x] == rs[x]
  {
    var r1 := rs[insert := rs[insert].(next := rs[after].next)];
    var r2 := r1[insert := r1[insert].(prev := Some(after))];
    var r3 := r2[after := r2[after].(next := Some(insert))];
    if r3[insert].next.Some? then
      var n := r3[insert].next.value;
      r3[n := r3[n].(prev := Some(insert))]
    else r3
  }

  /** Membership and links of a list, read off the region records. */
  lemma RegionListFacts(rs: RegionStore, s: seq<RegionId>)
    requires RegionList(rs, s)
    ensures forall i {:trigger s[i] in rs} {:trigger rs[s[i]]} :: 0 <= i < |s| ==>
              s[i] in rs && rs[s[i]].next == NextOf(s, i) && rs[s[i]].prev == PrevOf(s, i)
  {
    forall i | 0 <= i < |s|
      ensures s[i] in rs && rs[s[i]].next == NextOf(s, i) && rs[s[i]].prev == PrevOf(s, i)
    {
      assert s[i] in RegionNexts(rs) && s[i] in RegionPrevs(rs);
    }
  }

  /** A list whose region records carry the links of `s` is a region list. */
  lemma RecordsMakeRegionList(rs: RegionStore, s: seq<RegionId>)
    requires Distinct(s)
    requires forall i {:trigger s[i] in rs} {:trigger rs[s[i]]} :: 0 <= i < |s| ==>
               s[i] in rs && rs[s[i]].next == NextOf(s, i) && rs[s[i]].prev == PrevOf(s, i)
    ensures RegionList(rs, s)
  {
    forall i | 0 <= i < |s|
      ensures s[i] in RegionNexts(rs) && RegionNexts(rs)[s[i]] == NextOf(s, i)
      ensures s[i] in RegionPrevs(rs) && RegionPrevs(rs)[s[i]] == PrevOf(s, i)
    {
      assert s[i] in rs;
    }
  }

  /** Taking out the region at position `k` of a list leaves the others linked in their old order. */
  lemma TakeOutRegionUnlinks(rs: RegionStore, s: seq<RegionId>, k: nat)
    requires RegionList(rs, s) && k < |s|
    ensures s[k] in rs
    ensures rs[s[k]].prev.Some? ==> rs[s[k]].prev.value in rs
    ensures rs[s[k]].next.Some? ==> rs[s[k]].next.value in rs
    ensures RegionList(TakeOutRegion(rs, s[k]), Without(s, k))
  {
    RegionListFacts(rs, s);
    var r := TakeOutRegion(rs, s[k]);
    assert k > 0 ==> s[k - 1] != s[k];
    assert k + 1 < |s| ==> s[k + 1] != s[k] && (k > 0 ==> s[k + 1] != s[k - 1]);
    forall i | 0 <= i < |s| && i != k && i + 1 != k && i != k + 1
      ensures r[s[i]] == rs[s[i]]
    {
      assert s[i] != s[k] && (k > 0 ==> s[i] != s[k - 1]) && (k + 1 < |s| ==> s[i] != s[k + 1]);
    }
    RegionRemoved(rs, s, k, r);
  }

  /** The list left by the writes of taking out `s[k]`, whatever produced them. */
  lemma RegionRemoved(rs: RegionStore, s: seq<RegionId>, k: nat, r: RegionStore)
    requires RegionList(rs, s) && k < |s|
    requires forall i {:trigger s[i] in rs} {:trigger rs[s[i]]} :: 0 <= i < |s| ==>
               s[i] in rs && rs[s[i]].next == NextOf(s, i) && rs[s[i]].prev == PrevOf(s, i)
    requires r.Keys == rs.Keys
    requires k > 0 ==> r[s[k - 1]].next == NextOf(s, k) && r[s[k - 1]].prev == PrevOf(s, k - 1)
    requires k + 1 < |s| ==> r[s[k + 1]].prev == PrevOf(s, k) && r[s[k + 1]].next == NextOf(s, k + 1)
    requires forall i {:trigger r[s[i]]} :: 0 <= i < |s| && i != k && i + 1 != k && i != k + 1 ==> r[s[i]] == rs[s[i]]
    ensures RegionList(r, Without(s, k))
  {
    var t := Without(s, k);
    forall i, j | 0 <= i < j < |t| ensures t[i] != t[j] {
      assert t[i] == s[if i < k then i else i + 1];
      assert t[j] == s[if j < k then j else j + 1];
    }
    forall i | 0 <= i < |t|
      ensures t[i] in r && r[t[i]].next == NextOf(t, i) && r[t[i]].prev == PrevOf(t, i)
    {
      if i < k {
        assert t[i] == s[i] && s[i] in rs;
      } else {
        assert t[i] == s[i + 1] && s[i + 1] in rs;
      }
    }
    RecordsMakeRegionList(r, t);
  }

  /** Inserting a region not on the list before its `k`-th region splices it in at position `k`. */
  lemma InsertRegionBeforeSplices(rs: RegionStore, s: seq<RegionId>, k: nat, insert: RegionId)
    requires RegionList(rs, s) && k < |s| && insert in rs && insert !in s
    ensures s[k] in rs && (rs[s[k]].prev.Some? ==> rs[s[k]].prev.value in rs)
    ensures RegionList(InsertRegionBefore(rs, insert, s[k]), Splice(s, k, insert))
  {
    RegionListFacts(rs, s);
    var r := InsertRegionBefore(rs, insert, s[k]);
    assert insert != s[k] && rs[s[k]].prev != Some(insert) && rs[s[k]].prev != Some(s[k]);
    assert k > 0 ==> s[k - 1] != s[k];
    forall i | 0 <= i < |s| && i != k && i + 1 != k
      ensures r[s[i]] == rs[s[i]]
    {
      assert s[i] != s[k] && (k > 0 ==> s[i] != s[k - 1]);
    }
    RegionInserted(rs, s, k, insert, r);
  }

  /** Inserting a region not on the list after its `k`-th region splices it in at position `k + 1`. */
  lemma InsertRegionAfterSplices(rs: RegionStore, s: seq<RegionId>, k: nat, insert: RegionId)
    requires RegionList(rs, s) && k < |s| && insert in rs && insert !in s
    ensures s[k] in rs && (rs[s[k]].next.Some? ==> rs[s[k]].next.value in rs)
    ensures RegionList(InsertRegionAfter(rs, insert, s[k]), Splice(s, k + 1, insert))
  {
    RegionListFacts(rs, s);
    assert insert != s[k] && rs[s[k]].next != Some(insert) && rs[s[k]].next != Some(s[k]);
    RegionInsertedAfter(rs, s, k, insert, InsertRegionAfter(rs, insert, s[k]));
  }

  /** The list after the writes of inserting after `s[k]`, whatever produced them. */
  lemma RegionInsertedAfter(rs: RegionStore, s: seq<RegionId>, k: nat, insert: RegionId, r: RegionStore)
    requires RegionList(rs, s) && k < |s| && insert !in s
    requires forall i {:trigger s[i] in rs} {:trigger rs[s[i]]} :: 0 <= i < |s| ==>
               s[i] in rs && rs[s[i]].next == NextOf(s, i) && rs[s[i]].prev == PrevOf(s, i)
    requires r.Keys == rs.Keys && insert in rs
    requires r[insert] == rs[insert].(prev := Some(s[k]), next := rs[s[k]].next)
    requires r[s[k]] == rs[s[k]].(next := Some(insert))
    requires rs[s[k]].next.Some? ==> rs[s[k]].next.value in rs
    requires rs[s[k]].next.Some? ==> r[rs[s[k]].next.value] == rs[rs[s[k]].next.value].(prev := Some(insert))
    requires forall x {:trigger r[x]} :: x in rs && x != insert && x != s[k] && Some(x) != rs[s[k]].next ==> r[x] == rs[x]
    ensures RegionList(r, Splice(s, k + 1, insert))
  {
    assert k + 1 < |s| ==> s[k + 1] != s[k];
    forall i | 0 <= i < |s| && i != k && i != k + 1
      ensures r[s[i]] == rs[s[i]]
    {
      assert s[i] != s[k] && (k + 1 < |s| ==> s[i] != s[k + 1]);
    }
    RegionInserted(rs, s, k + 1, insert, r);
  }

  /** The list after the writes of placing `insert` at position `k`, whatever produced them. */
  lemma RegionInserted(rs: RegionStore, s: seq<RegionId>, k: nat, insert: RegionId, r: RegionStore)
    requires RegionList(rs, s) && k <= |s| && insert !in s
    requires forall i {:trigger s[i] in rs} {:trigger rs[s[i]]} :: 0 <= i < |s| ==>
               s[i] in rs && rs[s[i]].next == NextOf(s, i) && rs[s[i]].prev == PrevOf(s, i)
    requires r.Keys == rs.Keys && insert in r
    requires r[insert].next == (if k < |s| then Some(s[k]) else None)
    requires r[insert].prev == (if k > 0 then Some(s[k - 1]) else None)
    requires k > 0 ==> r[s[k - 1]].next == Some(insert) && r[s[k - 1]].prev == PrevOf(s, k - 1)
    requires k < |s| ==> r[s[k]].prev == Some(insert) && r[s[k]].next == NextOf(s, k)
    requires forall i {:trigger r[s[i]]} :: 0 <= i < |s| && i != k && i + 1 != k ==> r[s[i]] == rs[s[i]]
    ensures RegionList(r, Splice(s, k, insert))
  {
    var t := Splice(s, k, insert);
    forall i, j | 0 <= i < j < |t| ensures t[i] != t[j] {
      if i != k && j != k {
        assert t[i] == s[if i < k then i else i - 1];
        assert t[j] == s[if j < k then j else j - 1];
      }
    }
    forall i | 0 <= i < |t|
      ensures t[i] in r && r[t[i]].next == NextOf(t, i) && r[t[i]].prev == PrevOf(t, i)
    {
      if i < k {
        assert t[i] == s[i] && s[i] in rs;
      } else if i > k {
        assert t[i] == s[i - 1] && s[i - 1] in rs;
      }
    }
    RecordsMakeRegionList(r, t);
  }

  /**
   * Inserting a region after `after` and taking it straight out again gives
   * every other region its old record back, provided `after`'s successor
   * links back to `after`.
   */
  lemma InsertAfterThenTakeOutRestores(rs: RegionStore, insert: RegionId, after: RegionId)
    requires insert in rs && after in rs && insert != after
    requires rs[after].next.Some? ==>
               rs[after].next.value in rs && rs[after].next.value != insert
               && rs[rs[after].next.value].prev == Some(after)
    ensures var r := InsertRegionAfter(rs, insert, after);
            && (r[insert].prev.Some? ==> r[insert].prev.value in r)
            && (r[insert].next.Some? ==> r[insert].next.value in r)
            && forall x {:trigger rs[x]} :: x in rs && x != insert ==> TakeOutRegion(r, insert)[x] == rs[x]
  {
    var r := InsertRegionAfter(rs, insert, after);
    var t := TakeOutRegion(r, insert);
    forall x | x in rs && x != insert
      ensures t[x] == rs[x]
    {
      if x != after && Some(x) != rs[after].next {
        assert r[x] == rs[x];
      }
    }
  }

  /**
   * Inserting a region before `before` and taking it straight out again
   * gives every other region its old record back, provided `before`'s
   * predecessor links forward to `before`.
   */
  lemma InsertBeforeThenTakeOutRestores(rs: RegionStore, insert: RegionId, before: RegionId)
    requires insert in rs && before in rs && insert != before
    requires rs[before].prev.Some? ==>
               rs[before].prev.value in rs && rs[before].prev.value != insert
               && rs[rs[before].prev.value].next == Some(before)
    ensures var r := InsertRegionBefore(rs, insert, before);
            && (r[insert].prev.Some? ==> r[insert].prev.value in r)
            && (r[insert].next.Some? ==> r[insert].next.value in r)
            && forall x {:trigger rs[x]} :: x in rs && x != insert ==> TakeOutRegion(r, insert)[x] == rs[x]
  {
    var r := InsertRegionBefore(rs, insert, before);
    var t := TakeOutRegion(r, insert);
    forall x | x in rs && x != insert
      ensures t[x] == rs[x]
    {
      if x != before && Some(x) != rs[before].prev {
        assert r[x] == rs[x];
      }
    }
  }
}

=== FILE: specbins.dfy ===
/**
 * The list of special bins: a singly linked list kept ascending by
 * `numberBlocks`, with find (early exit on a sorted list), plain find,
 * sorted insert and remove by identity (src/bin.h).
 */
module SpecBinList {
  import opened Options
  import opened Data
  import opened Links

  /** The `next` links of all special bins. */
  function Nexts(st: SpecBinStore): (links: Links) {
    map x | x in st :: st[x].next
  }

  /** Following `next` from `root` visits exactly `s`, then NULL. */
  ghost predicate IsList(st: SpecBinStore, root: Option<SpecBinId>, s: seq<SpecBinId>) {
    Singly(Nexts(st), root, s)
  }

  ghost predicate InStore(st: SpecBinStore, s: seq<SpecBinId>) {
    forall i {:trigger s[i] in st} :: 0 <= i < |s| ==> s[i] in st
  }

  /** Keys never decrease along `s`. */
  ghost predicate Ascending(st: SpecBinStore, s: seq<SpecBinId>)
    requires InStore(st, s)
  {
    forall i, j :: 0 <= i < j < |s| ==> st[s[i]].numberBlocks <= st[s[j]].numberBlocks
  }

  /** Keys strictly increase along `s`: the list holds each size class at most once. */
  ghost predicate StrictlyAscending(st: SpecBinStore, s: seq<SpecBinId>)
    requires InStore(st, s)
  {
    forall i, j :: 0 <= i < j < |s| ==> st[s[i]].numberBlocks < st[s[j]].numberBlocks
  }

  lemma IsListInStore(st: SpecBinStore, root: Option<SpecBinId>, s: seq<SpecBinId>)
    requires IsList(st, root, s)
    ensures InStore(st, s)
  {
    forall i | 0 <= i < |s| ensures s[i] in st {
      assert s[i] in Nexts(st);
    }
  }

  /** The position of the first node whose key is at least `numberBlocks` (|s| if none). */
  function FirstAtLeast(st: SpecBinStore, s: seq<SpecBinId>, numberBlocks: int): (k: nat)
    requires InStore(st, s)
    ensures k <= |s|
    ensures forall i :: 0 <= i < k ==> st[s[i]].numberBlocks < numberBlocks
    ensures k < |s| ==> st[s[k]].numberBlocks >= numberBlocks
    decreases |s|
  {
    if s == [] then 0
    else if st[s[0]].numberBlocks >= numberBlocks then 0
    else 1 + FirstAtLeast(st, s[1..], numberBlocks)
  }

  /** The position of the first node whose key equals `numberBlocks` (|s| if none). */
  function FirstWithKey(st: SpecBinStore, s: seq<SpecBinId>, numberBlocks: int): (k: nat)
    requires InStore(st, s)
    ensures k <= |s|
    ensures forall i :: 0 <= i < k ==> st[s[i]].numberBlocks != numberBlocks
    ensures k < |s| ==> st[s[k]].numberBlocks == numberBlocks
    decreases |s|
  {
    if s == [] then 0
    else if st[s[0]].numberBlocks == numberBlocks then 0
    else 1 + FirstWithKey(st, s[1..], numberBlocks)
  }

  /** On an ascending list the key, if present at all, sits at the first position not below it. */
  lemma AscendingKeyAtFirstAtLeast(st: SpecBinStore, s: seq<SpecBinId>, numberBlocks: int)
    requires InStore(st, s) && Ascending(st, s)
    ensures var k := FirstAtLeast(st, s, numberBlocks);
            (k < |s| && st[s[k]].numberBlocks == numberBlocks)
            <==> (exists i :: 0 <= i < |s| && st[s[i]].numberBlocks == numberBlocks)
  {
    var k := FirstAtLeast(st, s, numberBlocks);
    if i :| 0 <= i < |s| && st[s[i]].numberBlocks == numberBlocks {
      assert k <= i;
      assert st[s[k]].numberBlocks <= st[s[i]].numberBlocks || k == i;
    }
  }

  /**
   * `xFindInSortedList`: walks the list and stops at the first node whose key
   * is not below `numberBlocks`, returning it when the keys are equal and
   * NULL otherwise, or NULL at the end of the list.
   */
  method FindInSortedList(st: SpecBinStore, bin: Option<SpecBinId>, numberBlocks: int, ghost s: seq<SpecBinId>)
    returns (r: Option<SpecBinId>)
    requires IsList(st, bin, s)
    ensures InStore(st, s)
    ensures var k := FirstAtLeast(st, s, numberBlocks);
            r == if k < |s| && st[s[k]].numberBlocks == numberBlocks then Some(s[k]) else None
    ensures r.Some? ==> r.value in s && st[r.value].numberBlocks == numberBlocks
    ensures Ascending(st, s) ==>
              (r.Some? <==> exists i :: 0 <= i < |s| && st[s[i]].numberBlocks == numberBlocks)
  {
    IsListInStore(st, bin, s);
    if Ascending(st, s) {
      AscendingKeyAtFirstAtLeast(st, s, numberBlocks);
    }
    var p := bin;
    ghost var i := 0;
    while p.Some?
      invariant i <= |s|
      invariant p == if i < |s| then Some(s[i]) else None
      invariant forall j :: 0 <= j < i ==> st[s[j]].numberBlocks < numberBlocks
      decreases |s| - i
    {
      assert Nexts(st)[s[i]] == NextOf(s, i);
      if st[p.value].numberBlocks >= numberBlocks {
        assert FirstAtLeast(st, s, numberBlocks) == i;
        if st[p.value].numberBlocks == numberBlocks {
          return p;
        }
        return None;
      }
      p := st[p.value].next;
      i := i + 1;
    }
    assert FirstAtLeast(st, s, numberBlocks) == |s|;
    return None;
  }

  /**
   * `xFindInList`: the same search without relying on order; returns the
   * first node whose key equals `numberBlocks`. The source's third parameter
   * `sBin` is never read.
   */
  method FindInList(st: SpecBinStore, bin: Option<SpecBinId>, numberBlocks: int, sBin: Option<SpecBinId>,
                    ghost s: seq<SpecBinId>)
    returns (r: Option<SpecBinId>)
    requires IsList(st, bin, s)
    ensures InStore(st, s)
    ensures var k := FirstWithKey(st, s, numberBlocks);
            r == if k < |s| then Some(s[k]) else None
    ensures r.None? <==> forall i :: 0 <= i < |s| ==> st[s[i]].numberBlocks != numberBlocks
  {
    IsListInStore(st, bin, s);
    var p := bin;
    ghost var i := 0;
    while p.Some?
      invariant i <= |s|
      invariant p == if i < |s| then Some(s[i]) else None
      invariant forall j :: 0 <= j < i ==> st[s[j]].numberBlocks != numberBlocks
      decreases |s| - i
    {
      assert Nexts(st)[s[i]] == NextOf(s, i);
      if st[p.value].numberBlocks == numberBlocks {
        assert FirstWithKey(st, s, numberBlocks) == i;
        return p;
      }
      p := st[p.value].next;
      i := i + 1;
    }
    assert FirstWithKey(st, s, numberBlocks) == |s|;
    return None;
  }

  /** Inserting `sBin` before the first node not below its key keeps the keys ascending. */
  lemma InsertKeepsAscending(st: SpecBinStore, s: seq<SpecBinId>, sBin: SpecBinId, numberBlocks: int)
    requires InStore(st, s) && sBin in st && st[sBin].numberBlocks == numberBlocks
    ensures InStore(st, Splice(s, FirstAtLeast(st, s, numberBlocks), sBin))
    ensures Ascending(st, s) ==> Ascending(st, Splice(s, FirstAtLeast(st, s, numberBlocks), sBin))
  {
    var k := FirstAtLeast(st, s, numberBlocks);
    var t := Splice(s, k, sBin);
    assert InStore(st, t);
    if Ascending(st, s) {
      forall i, j | 0 <= i < j < |t| ensures st[t[i]].numberBlocks <= st[t[j]].numberBlocks {
        if j == k {
          assert st[t[i]].numberBlocks < numberBlocks;
        } else if i == k {
          assert st[s[k]].numberBlocks >= numberBlocks;
          assert st[s[k]].numberBlocks <= st[s[j - 1]].numberBlocks || k == j - 1;
        }
      }
    }
  }

  /** The same for strictly ascending keys, when no node has the key of `sBin` yet. */
  lemma InsertKeepsStrictlyAscending(st: SpecBinStore, s: seq<SpecBinId>, sBin: SpecBinId, numberBlocks: int)
    requires InStore(st, s) && sBin in st && st[sBin].numberBlocks == numberBlocks
    requires StrictlyAscending(st, s) && forall i :: 0 <= i < |s| ==> st[s[i]].numberBlocks != numberBlocks
    ensures InStore(st, Splice(s, FirstAtLeast(st, s, numberBlocks), sBin))
    ensures StrictlyAscending(st, Splice(s, FirstAtLeast(st, s, numberBlocks), sBin))
  {
    var k := FirstAtLeast(st, s, numberBlocks);
    var t := Splice(s, k, sBin);
    assert InStore(st, t);
    forall i, j | 0 <= i < j < |t| ensures st[t[i]].numberBlocks < st[t[j]].numberBlocks {
      if j == k {
        assert st[t[i]].numberBlocks < numberBlocks;
      } else if i == k {
        assert st[s[k]].numberBlocks > numberBlocks;
        assert st[s[k]].numberBlocks <= st[s[j - 1]].numberBlocks || k == j - 1;
      }
    }
  }

  /** The store after `sBin` is linked in at position `k` of `s`. */
  function LinkIn(st: SpecBinStore, s: seq<SpecBinId>, k: nat, sBin: SpecBinId): (st': SpecBinStore)
    requires InStore(st, s) && sBin in st && k <= |s|
  {
    var st1 := if k == 0 then st else st[s[k - 1] := st[s[k - 1]].(next := Some(sBin))];
    st1[sBin := st1[sBin].(next := if k < |s| then Some(s[k]) else None)]
  }

  lemma NextsUpdate(st: SpecBinStore, x: SpecBinId, b: SpecBin)
    ensures Nexts(st[x := b]) == Nexts(st)[x := b.next]
  {
  }

  lemma LinkInSplices(st: SpecBinStore, rootBin: Option<SpecBinId>, s: seq<SpecBinId>, k: nat, sBin: SpecBinId)
    requires IsList(st, rootBin, s) && InStore(st, s)
    requires sBin in st && sBin !in s && k <= |s|
    ensures IsList(LinkIn(st, s, k, sBin), if k == 0 then Some(sBin) else rootBin, Splice(s, k, sBin))
  {
    var st1 := if k == 0 then st else st[s[k - 1] := st[s[k - 1]].(next := Some(sBin))];
    var st' := st1[sBin := st1[sBin].(next := if k < |s| then Some(s[k]) else None)];
    if k > 0 {
      NextsUpdate(st, s[k - 1], st[s[k - 1]].(next := Some(sBin)));
    }
    NextsUpdate(st1, sBin, st1[sBin].(next := if k < |s| then Some(s[k]) else None));
    SinglyInsert(Nexts(st), rootBin, s, k, sBin, Nexts(st'));
  }

  /** Linking in writes `next` fields only, and only those of `sBin` and its new predecessor. */
  lemma LinkInFrame(st: SpecBinStore, s: seq<SpecBinId>, k: nat, sBin: SpecBinId)
    requires InStore(st, s) && Distinct(s)
    requires sBin in st && sBin !in s && k <= |s|
    ensures var st' := LinkIn(st, s, k, sBin);
            && st'.Keys == st.Keys
            && (forall x :: x in st ==> st'[x] == st[x].(next := st'[x].next))
            && (forall x :: x in st && x != sBin && (k == 0 || x != s[k - 1]) ==> st'[x] == st[x])
  {
  }

  /** Rewriting links leaves every key, and so the order of the keys along a list, as it was. */
  lemma LinksKeepOrder(st: SpecBinStore, st': SpecBinStore, t: seq<SpecBinId>)
    requires InStore(st, t)
    requires forall x :: x in st ==> x in st' && st'[x].numberBlocks == st[x].numberBlocks
    ensures InStore(st', t)
    ensures Ascending(st, t) ==> Ascending(st', t)
    ensures StrictlyAscending(st, t) ==> StrictlyAscending(st', t)
  {
  }

  /**
   * `xInsertIntoSortedList`: links `sBin` in before the first node whose key
   * is at least `numberBlocks`. It becomes the new root when the list is
   * empty or its root's key is not below `numberBlocks`; otherwise the old
   * root is returned. Only `sBin`'s link and its new predecessor's link are
   * written.
   */
  method InsertIntoSortedList(st: SpecBinStore, rootBin: Option<SpecBinId>, sBin: SpecBinId, numberBlocks: int,
                              ghost s: seq<SpecBinId>)
    returns (st': SpecBinStore, root': SpecBinId)
    requires IsList(st, rootBin, s)
    requires sBin in st && sBin !in s
    ensures InStore(st, s)
    ensures IsList(st', Some(root'), Splice(s, FirstAtLeast(st, s, numberBlocks), sBin))
    ensures root' == sBin <==> rootBin.None? || numberBlocks <= st[rootBin.value].numberBlocks
    ensures root' != sBin ==> rootBin == Some(root')
    ensures st'.Keys == st.Keys
    ensures forall x :: x in st ==> st'[x] == st[x].(next := st'[x].next)
    ensures var k := FirstAtLeast(st, s, numberBlocks);
            forall x :: x in st && x != sBin && (k == 0 || x != s[k - 1]) ==> st'[x] == st[x]
    ensures st[sBin].numberBlocks == numberBlocks && Ascending(st, s) ==>
              Ascending(st', Splice(s, FirstAtLeast(st, s, numberBlocks), sBin))
    ensures st[sBin].numberBlocks == numberBlocks && StrictlyAscending(st, s)
              && (forall i :: 0 <= i < |s| ==> st[s[i]].numberBlocks != numberBlocks) ==>
              StrictlyAscending(st', Splice(s, FirstAtLeast(st, s, numberBlocks), sBin))
  {
    IsListInStore(st, rootBin, s);
    ghost var k: nat;
    if rootBin.None? || numberBlocks <= st[rootBin.value].numberBlocks {
      st' := st[sBin := st[sBin].(next := rootBin)];
      root' := sBin;
      k := 0;
    } else {
      var prev := rootBin.value;
      var curr := st[prev].next;
      ghost var i := 1;
      assert Nexts(st)[s[0]] == NextOf(s, 0);
      while curr.Some? && st[curr.value].numberBlocks < numberBlocks
        invariant 1 <= i <= |s|
        invariant prev == s[i - 1]
        invariant curr == NextOf(s, i - 1)
        invariant forall j :: 0 <= j < i ==> st[s[j]].numberBlocks < numberBlocks
        decreases |s| - i
      {
        prev := curr.value;
        curr := st[prev].next;
        assert Nexts(st)[s[i]] == NextOf(s, i);
        i := i + 1;
      }
      var st1 := st[prev := st[prev].(next := Some(sBin))];
      st' := st1[sBin := st1[sBin].(next := curr)];
      root' := rootBin.value;
      k := i;
    }
    assert k == FirstAtLeast(st, s, numberBlocks);
    assert st' == LinkIn(st, s, k, sBin);
    LinkInSplices(st, rootBin, s, k, sBin);
    LinkInFrame(st, s, k, sBin);
    if st[sBin].numberBlocks == numberBlocks {
      InsertKeepsAscending(st, s, sBin, numberBlocks);
      if StrictlyAscending(st, s) && forall i :: 0 <= i < |s| ==> st[s[i]].numberBlocks != numberBlocks {
        InsertKeepsStrictlyAscending(st, s, sBin, numberBlocks);
      }
      LinksKeepOrder(st, st', Splice(s, k, sBin));
    }
  }

  /**
   * The removal scan's early exit: while looking for the node at position
   * `m`, it gives up as soon as a node it steps past (all but the last
   * one before `m`) has a key above the removed bin's key.
   */
  ghost predicate ScanPasses(st: SpecBinStore, s: seq<SpecBinId>, m: nat, numberBlocks: int)
    requires InStore(st, s) && m <= |s|
  {
    forall j :: 0 <= j < m - 1 ==> st[s[j]].numberBlocks <= numberBlocks
  }

  /** The store with the node at position `m` unlinked from its predecessor. */
  function Unlinked(st: SpecBinStore, s: seq<SpecBinId>, m: nat): (st': SpecBinStore)
    requires InStore(st, s) && 0 < m < |s|
  {
    st[s[m - 1] := st[s[m - 1]].(next := st[s[m]].next)]
  }

  /** `sBin` sits at position `m` and the removal scan reaches it. */
  ghost predicate Reaches(st: SpecBinStore, s: seq<SpecBinId>, sBin: SpecBinId, m: nat)
    requires InStore(st, s) && sBin in st
  {
    m < |s| && s[m] == sBin && (m == 0 || ScanPasses(st, s, m, st[sBin].numberBlocks))
  }

  /** What every run of the removal leaves behind, by the position where it stopped. */
  lemma RemoveOutcome(st: SpecBinStore, rootBin: Option<SpecBinId>, sBin: SpecBinId, s: seq<SpecBinId>,
                      st': SpecBinStore, root': Option<SpecBinId>, stop: nat)
    requires IsList(st, rootBin, s) && InStore(st, s) && sBin in st
    requires stop <= |s|
    requires forall j :: 0 <= j < stop ==> s[j] != sBin
    requires stop < |s| ==> s[stop] == sBin
    requires stop == |s| || Reaches(st, s, sBin, stop) || !ScanPasses(st, s, stop, st[sBin].numberBlocks)
    requires Reaches(st, s, sBin, stop) && stop == 0 ==> st' == st && root' == NextOf(s, 0)
    requires Reaches(st, s, sBin, stop) && stop > 0 ==> st' == Unlinked(st, s, stop) && root' == rootBin
    requires !Reaches(st, s, sBin, stop) ==> st' == st && root' == rootBin
    ensures s == [] ==> root' == None && st' == st
    ensures s != [] && s[0] == sBin ==> root' == NextOf(s, 0) && st' == st
    ensures s != [] && s[0] != sBin ==> root' == rootBin
    ensures sBin !in s ==> st' == st && root' == rootBin
    ensures forall m :: 0 < m < |s| && s[m] == sBin ==>
              st' == if ScanPasses(st, s, m, st[sBin].numberBlocks) then Unlinked(st, s, m) else st
    ensures forall m :: 0 <= m < |s| && s[m] == sBin && (m == 0 || ScanPasses(st, s, m, st[sBin].numberBlocks)) ==>
              IsList(st', root', Without(s, m))
    ensures Ascending(st, s) ==> forall m :: 0 <= m < |s| && s[m] == sBin ==> IsList(st', root', Without(s, m))
  {
    if stop < |s| {
      assert forall m :: 0 <= m < |s| && s[m] == sBin ==> m == stop;
      if Reaches(st, s, sBin, stop) {
        if stop > 0 {
          assert Nexts(st)[s[stop]] == NextOf(s, stop);
        }
        SinglyRemove(Nexts(st), rootBin, s, stop, Nexts(st'));
      }
    } else {
      assert sBin !in s;
    }
  }

  /**
   * `xRemoveFromSortedList`: a NULL root gives NULL; when `sBin` is the root
   * its successor is returned and nothing is written; otherwise the scan
   * unlinks `sBin` from its predecessor if it reaches it, and returns the
   * old root. The early exit tests the key of the node behind the iterator,
   * exactly as the source does, so on a list that is not ascending a present
   * `sBin` may stay linked.
   */
  method RemoveFromSortedList(st: SpecBinStore, rootBin: Option<SpecBinId>, sBin: SpecBinId,
                              ghost s: seq<SpecBinId>)
    returns (st': SpecBinStore, root': Option<SpecBinId>)
    requires IsList(st, rootBin, s)
    requires sBin in st
    ensures InStore(st, s)
    ensures s == [] ==> root' == None && st' == st
    ensures s != [] && s[0] == sBin ==> root' == NextOf(s, 0) && st' == st
    ensures s != [] && s[0] != sBin ==> root' == rootBin
    ensures sBin !in s ==> st' == st && root' == rootBin
    ensures forall m :: 0 < m < |s| && s[m] == sBin ==>
              st' == if ScanPasses(st, s, m, st[sBin].numberBlocks) then Unlinked(st, s, m) else st
    ensures forall m :: 0 <= m < |s| && s[m] == sBin && (m == 0 || ScanPasses(st, s, m, st[sBin].numberBlocks)) ==>
              IsList(st', root', Without(s, m))
    ensures Ascending(st, s) ==> forall m :: 0 <= m < |s| && s[m] == sBin ==> IsList(st', root', Without(s, m))
  {
    IsListInStore(st, rootBin, s);
    if rootBin.None? {
      RemoveOutcome(st, rootBin, sBin, s, st, None, 0);
      return st, None;
    }
    assert Nexts(st)[s[0]] == NextOf(s, 0);
    var listIterator := st[rootBin.value].next;
    var numberBlocks := st[sBin].numberBlocks;
    if rootBin.value == sBin {
      RemoveOutcome(st, rootBin, sBin, s, st, listIterator, 0);
      return st, listIterator;
    }
    var prev := rootBin.value;
    ghost var i := 0;
    while listIterator.Some? && listIterator.value != sBin
      invariant i < |s| && prev == s[i] && listIterator == NextOf(s, i)
      invariant forall j :: 0 <= j < i ==> st[s[j]].numberBlocks <= numberBlocks
      invariant forall j :: 0 <= j <= i ==> s[j] != sBin
      decreases |s| - i
    {
      if st[prev].numberBlocks > numberBlocks {
        ghost var stop :| i + 1 < stop <= |s| && (forall j :: 0 <= j < stop ==> s[j] != sBin)
                          && (stop < |s| ==> s[stop] == sBin);
        RemoveOutcome(st, rootBin, sBin, s, st, rootBin, stop);
        return st, rootBin;
      }
      prev := listIterator.value;
      listIterator := st[prev].next;
      assert Nexts(st)[s[i + 1]] == NextOf(s, i + 1);
      i := i + 1;
    }
    if listIterator.Some? {
      assert Nexts(st)[s[i + 1]] == NextOf(s, i + 1);
      st' := st[prev := st[prev].(next := st[listIterator.value].next)];
      RemoveOutcome(st, rootBin, sBin, s, st', rootBin, i + 1);
    } else {
      st' := st;
      RemoveOutcome(st, rootBin, sBin, s, st', rootBin, |s|);
    }
    root' := rootBin;
  }

  /**
   * The quirk of the removal scan: the early exit tests the key of the node
   * behind the iterator. On the list 0 -> 1 -> 2 with keys 5, 1, 1, removing
   * bin 2 stops at once because bin 0's key is above 1, although the
   * iterator's own key (bin 1's) is not; the store comes back unchanged and
   * bin 2 stays linked.
   */
  method RemoveScanStopsEarlyOnUnsortedList() returns (st': SpecBinStore, root': Option<SpecBinId>)
    ensures root' == Some(0) && IsList(st', root', [0, 1, 2])
  {
    var st := map[0 := SpecBin(Some(1), 0, 5, 1), 1 := SpecBin(Some(2), 0, 1, 1),
                  2 := SpecBin(None, 0, 1, 1)];
    ghost var s := [0, 1, 2];
    assert Nexts(st) == map[0 := Some(1), 1 := Some(2), 2 := None];
    assert !ScanPasses(st, s, 2, st[2].numberBlocks) by {
      assert st[s[0]].numberBlocks > st[2].numberBlocks;
    }
    st', root' := RemoveFromSortedList(st, Some(0), 2, s);
    assert s[2] == 2;
  }
}

=== FILE: sticky.dfy ===
/**
 * Tagged bin pointers (src/bin.h): a page's `bin` word is the address of its
 * top bin, a multiple of the pointer size W, plus a sticky tag below W held in
 * the low bits. W is a power of two, so `x & (W - 1)` is `x % W` and
 * `x & ~(W - 1)` is `x - x % W`; the setters' `+` is on 64-bit unsigned words
 * and wraps.
 *
 * A bin's `next` chains the bins of one size class that differ in their
 * `sticky` value; `GetBinOfPage` walks it to find the bin a page's tag names.
 */
module StickyTags {
  import opened Options
  import opened Data
  import opened Links

  /** Unsigned addition of two words. */
  function WrapAdd(a: nat, b: nat): (sum: Word) {
    (a + b) % WordModulus
  }

  /** `xGetStickyOfPage`: the low bits of the page's bin word. */
  function GetStickyOfPage(page: Page): (r: nat)
    ensures r < SizeOfVoidP
    ensures (page.bin - r) % SizeOfVoidP == 0
  {
    page.bin % SizeOfVoidP
  }

  /** `xGetTopBinOfPage`: the page's bin word with its low bits cleared. */
  function GetTopBinOfPage(page: Page): (r: BinAddr)
    ensures r % SizeOfVoidP == 0
    ensures r <= page.bin < r + SizeOfVoidP
  {
    page.bin - page.bin % SizeOfVoidP
  }

  /** The bin word is the top bin plus the tag, both recoverable. */
  lemma TagSplitsWord(page: Page)
    ensures page.bin == GetTopBinOfPage(page) + GetStickyOfPage(page)
  {
  }

  /** An aligned address plus a tag below W does not wrap, and splits back into the two. */
  lemma AlignedPlusTag(top: nat, tag: nat)
    requires top < WordModulus && top % SizeOfVoidP == 0 && tag < SizeOfVoidP
    ensures top + tag < WordModulus
    ensures WrapAdd(tag, top) == top + tag && WrapAdd(top, tag) == top + tag
    ensures (top + tag) % SizeOfVoidP == tag
  {
    assert WordModulus % SizeOfVoidP == 0;
  }

  /**
   * `xSetTopBinAndStickyOfPage`: tags the page with `binAddr` and the low
   * bits of that bin's `sticky`. For an aligned bin address both read back.
   */
  function SetTopBinAndStickyOfPage(page: Page, binAddr: BinAddr, bin: Bin): (r: Page)
    ensures r == page.(bin := r.bin)
    ensures binAddr % SizeOfVoidP == 0 ==>
              GetTopBinOfPage(r) == binAddr && GetStickyOfPage(r) == bin.sticky % SizeOfVoidP
  {
    var r := page.(bin := WrapAdd(bin.sticky % SizeOfVoidP, binAddr));
    if binAddr % SizeOfVoidP == 0 then
      AlignedPlusTag(binAddr, bin.sticky % SizeOfVoidP);
      r
    else r
  }

  /**
   * `xSetTopBinOfPage`: re-points the page at `binAddr`, keeping its tag
   * when the address is aligned.
   */
  function SetTopBinOfPage(page: Page, binAddr: BinAddr): (r: Page)
    ensures r == page.(bin := r.bin)
    ensures binAddr % SizeOfVoidP == 0 ==>
              GetTopBinOfPage(r) == binAddr && GetStickyOfPage(r) == GetStickyOfPage(page)
  {
    var r := page.(bin := WrapAdd(binAddr, GetStickyOfPage(page)));
    if binAddr % SizeOfVoidP == 0 then
      AlignedPlusTag(binAddr, GetStickyOfPage(page));
      r
    else r
  }

  /** `xSetBinOfPage`: the same word update as `xSetTopBinOfPage`. */
  function SetBinOfPage(page: Page, binAddr: BinAddr): (r: Page)
    ensures r == SetTopBinOfPage(page, binAddr)
    ensures binAddr % SizeOfVoidP == 0 ==>
              GetTopBinOfPage(r) == binAddr && GetStickyOfPage(r) == GetStickyOfPage(page)
  {
    page.(bin := WrapAdd(binAddr, GetStickyOfPage(page)))
  }

  /** `xSetStickyOfPage`: retags the page with the low bits of `bin`'s `sticky`, keeping its top bin. */
  function SetStickyOfPage(page: Page, bin: Bin): (r: Page)
    ensures r == page.(bin := r.bin)
    ensures GetTopBinOfPage(r) == GetTopBinOfPage(page)
    ensures GetStickyOfPage(r) == bin.sticky % SizeOfVoidP
  {
    AlignedPlusTag(GetTopBinOfPage(page), bin.sticky % SizeOfVoidP);
    page.(bin := WrapAdd(bin.sticky % SizeOfVoidP, GetTopBinOfPage(page)))
  }

  /**
   * `xIsStickyBin`: a bin is sticky when its `sticky` reaches W, that is
   * exactly when a page tag cannot hold its `sticky` value.
   */
  predicate IsStickyBin(bin: Bin)
    ensures IsStickyBin(bin) <==> bin.sticky % SizeOfVoidP != bin.sticky
  {
    bin.sticky >= SizeOfVoidP
  }

  /** The `next` links of all bins. */
  function BinNexts(bins: BinStore): (links: Links) {
    map x | x in bins :: bins[x].next
  }

  /** The position of the first bin along `s` whose `sticky` is `sticky` (|s| if none). */
  function FirstWithSticky(bins: BinStore, s: seq<BinAddr>, sticky: nat): (k: nat)
    requires forall i {:trigger s[i] in bins} :: 0 <= i < |s| ==> s[i] in bins
    ensures k <= |s|
    ensures forall i :: 0 <= i < k ==> bins[s[i]].sticky != sticky
    ensures k < |s| ==> bins[s[k]].sticky == sticky
    decreases |s|
  {
    if s == [] then 0
    else if bins[s[0]].sticky == sticky then 0
    else 1 + FirstWithSticky(bins, s[1..], sticky)
  }

  /**
   * `xGetBinOfPage`: the page's top bin when that bin is sticky; otherwise
   * the first bin along the top bin's `next` chain `s` whose `sticky` equals
   * the page's tag, or the last bin of the chain when none does.
   */
  method GetBinOfPage(bins: BinStore, page: Page, ghost s: seq<BinAddr>) returns (r: BinAddr)
    requires Singly(BinNexts(bins), Some(GetTopBinOfPage(page)), s)
    ensures s != [] && s[0] == GetTopBinOfPage(page)
    ensures forall i {:trigger s[i] in bins} :: 0 <= i < |s| ==> s[i] in bins
    ensures IsStickyBin(bins[s[0]]) ==> r == s[0]
    ensures !IsStickyBin(bins[s[0]]) ==>
              var k := FirstWithSticky(bins, s, GetStickyOfPage(page));
              r == if k < |s| then s[k] else s[|s| - 1]
  {
    forall i | 0 <= i < |s| ensures s[i] in bins {
      assert s[i] in BinNexts(bins);
    }
    var sticky := GetStickyOfPage(page);
    r := GetTopBinOfPage(page);
    if !IsStickyBin(bins[r]) {
      ghost var i := 0;
      while bins[r].sticky != sticky && bins[r].next.Some?
        invariant i < |s| && r == s[i]
        invariant forall j :: 0 <= j < i ==> bins[s[j]].sticky != sticky
        decreases |s| - i
      {
        assert BinNexts(bins)[s[i]] == NextOf(s, i);
        r := bins[r].next.value;
        i := i + 1;
      }
      assert BinNexts(bins)[s[i]] == NextOf(s, i);
      assert FirstWithSticky(bins, s, sticky) == if bins[r].sticky == sticky then i else |s|;
    }
  }

  /**
   * A page tagged for bin `s[k]` of the `next` chain `s` of its top bin `top`,
   * where `top` is not sticky, `s[k]`'s `sticky` fits in a tag and no earlier
   * bin of the chain has the same `sticky`, has top bin `top` and `s[k]` as
   * the first bin of the chain with its tag.
   */
  lemma TaggedPageFindsItsBin(bins: BinStore, page: Page, top: BinAddr, s: seq<BinAddr>, k: nat)
    requires forall i {:trigger s[i] in bins} :: 0 <= i < |s| ==> s[i] in bins
    requires top % SizeOfVoidP == 0 && k < |s| && s[0] == top
    requires !IsStickyBin(bins[s[0]]) && !IsStickyBin(bins[s[k]])
    requires forall j :: 0 <= j < k ==> bins[s[j]].sticky != bins[s[k]].sticky
    ensures var tagged := SetTopBinAndStickyOfPage(page, top, bins[s[k]]);
            GetTopBinOfPage(tagged) == s[0] && FirstWithSticky(bins, s, GetStickyOfPage(tagged)) == k
  {
    var tagged := SetTopBinAndStickyOfPage(page, top, bins[s[k]]);
    assert GetStickyOfPage(tagged) == bins[s[k]].sticky;
  }

  /**
   * Tagging a page for a bin with `xSetTopBinAndStickyOfPage` and looking
   * it up with `xGetBinOfPage` gives the bin back, when the top bin is not
   * sticky, the bin's `sticky` fits in a tag and no earlier bin of the top
   * bin's chain has the same `sticky`.
   */
  method LookUpTaggedPage(bins: BinStore, page: Page, top: BinAddr, s: seq<BinAddr>, k: nat)
    returns (tagged: Page, r: BinAddr)
    requires Singly(BinNexts(bins), Some(top), s)
    requires top % SizeOfVoidP == 0 && k < |s|
    requires s[0] in bins && !IsStickyBin(bins[s[0]])
    requires s[k] in bins && !IsStickyBin(bins[s[k]])
    requires forall j :: 0 <= j < k ==> s[j] in bins && bins[s[j]].sticky != bins[s[k]].sticky
    ensures tagged == SetTopBinAndStickyOfPage(page, top, bins[s[k]])
    ensures r == s[k]
  {
    tagged := SetTopBinAndStickyOfPage(page, top, bins[s[k]]);
    r := GetBinOfPage(bins, tagged, s);
    TaggedPageFindsItsBin(bins, page, top, s, k);
  }
}
